=== FILE: README.md ===
# SPARQL editor prefix handling, modelled in Dafny

`sparql-editor.js` wraps a third-party SPARQL query editor (Yasqe) and
results view (Yasr). Almost all of it is configuration and event wiring; this
project models the three pieces of plain logic inside it and proves what
they do:

* **Term-list parse** shared by the class and property autocompleters: the
  CSV response is split on line feeds, empty lines are dropped, and the first
  remaining line (the CSV header) is shifted off (`TermList`).
* **Prefix table**: a map from prefix name to IRI, seeded with thirteen
  defaults, into which the endpoint's `sh:prefix`/`sh:namespace` rows are
  merged in response order, last row winning. The add-prefixes button pushes
  every key, ascending, as an object built by `pref[key] = iri`: `{key: iri}`,
  except that for the key `__proto__` the assignment reaches the inherited
  setter and the object stays `{}` (`Prefixes`, `StringOrder`, `Editor`).
* **Prefix injector** `addCommonPrefixesToQuery`: for each key, ascending, it
  pushes such an object when the buffer *uses* `key:` and does not already
  *declare* it. Both tests are JavaScript regular expressions built by pasting
  the key and the IRI, unescaped, into a fixed source:
  `'PREFIX ' + key + ' ?: ?<' + iri` and `'[(| |\u00a0|/]' + key + ':'`
  (`Pattern`, `Injector`).

Modules, one per file:

| file | module | contents |
|---|---|---|
| wrappers.dfy | `Wrappers` | `Option` |
| string_order.dfy | `StringOrder` | the default `sort()` order on strings, its order laws, `SortedSet` |
| term_list.dfy | `TermList` | `Split`/`Join`, `NonEmpty`, `Terms`, the completer result |
| prefixes.dfy | `Prefixes` | defaults, `Merge`, rows with missing fields, sorted pushes |
| pattern.dfy | `Pattern` | the regular-expression fragment: `Compile`, `MatchesAt`, `Test` |
| injector.dfy | `Injector` | the two tests, their plain-string meaning, the selector |
| editor.dfy | `Editor` | the editor's state: construction, prefix response, button click |

The regular expressions are modelled by a small compiler for the fragment
the injector builds: literal characters, `.`, a bracket of plain characters,
and `?` after any of these. ECMAScript's semantics for that fragment are
written out: `.` matches any character except a line terminator, `?` may take
or skip its atom, and `test` on a fresh expression looks for a match at
any offset. The `g` flag has no effect because every expression is new and
starts at `lastIndex` 0. Each test is then proved equal to a plain-string
statement: `Injector.IsUsed` and `Injector.IsDeclared`.

Two behaviours of the code are easy to misread, and the model keeps both
as written:

* One might expect a use of `key:` to follow any whitespace or the start
  of the buffer. The bracket `[(| |\u00a0|/]` accepts only `(`, `|`,
  space, U+00A0 and `/`. So `key:` at offset 0, or after a tab or line feed,
  is not a use (`Injector.UseAtOffsetZeroIgnored`).
* One might expect the declaration test to be tied to the exact IRI. The
  IRI is pasted in unescaped, so each `.` in it matches any character
  (`Injector.DotInIriMatchesAnyCharacter`). Nothing is required after the
  IRI, so a declaration with a longer IRI also counts.

## Model

| member | source | states |
|---|---|---|
| TermList.Split | sparql-editor.js:88 | `split('\n')` gives at least one piece; no piece contains a line feed; joining the pieces with line feeds gives the text back |
| TermList.SplitJoin | sparql-editor.js:104 | splitting a join of line-feed-free pieces gives those pieces back, so `Split` and `Join` are inverse |
| TermList.SplitPieceCount | sparql-editor.js:88 | there is one piece more than there are line feeds |
| TermList.NonEmpty | sparql-editor.js:88 | the filter keeps every non-empty line as often as it occurs, no empty line, in the original relative order |
| TermList.Terms | sparql-editor.js:88-90 | the term list never holds an empty string or a line feed, has max(0, non-empty lines − 1) entries, and keeps the lines' relative order |
| TermList.HeaderIsFirstNonEmptyLine | sparql-editor.js:88-89 | exactly the first non-empty line is removed: the non-empty lines are that header followed by the terms; with no non-empty line the list is empty |
| TermList.HeaderAndBlankLinesDropped | sparql-editor.js:104-106 | `"header\nA\nB\n\n"` parses to `["A", "B"]` |
| TermList.CompleterResult | sparql-editor.js:85-92 | a completer yields a term list exactly when its fetch produced text; that list is the parse of the text, and it has no empty entry |
| TermList.CompleterListsLinesAfterHeader | sparql-editor.js:85-92 | a completer fed text yields the non-empty lines after the first non-empty one, or nothing when there is no such line |
| StringOrder.LessEqTotal | sparql-editor.js:63 | any two keys are comparable under the default sort order |
| StringOrder.LessEqAntisymmetric | sparql-editor.js:63 | two keys that sort no later than each other are equal |
| StringOrder.LessEqTransitive | sparql-editor.js:63 | the default sort order is transitive |
| StringOrder.Minimum | sparql-editor.js:63 | a non-empty key set has a member that sorts no later than every other member |
| StringOrder.SortedSet | sparql-editor.js:63 | `[...keys].sort()` lists every key of the set exactly once and nothing else, strictly ascending |
| StringOrder.AscendingListingIsUnique | sparql-editor.js:115 | there is only one strictly ascending listing of a key set, so the sorted order is fully determined |
| StringOrder.AscendingFromNeighbours | sparql-editor.js:115 | a listing whose neighbours ascend is strictly ascending throughout |
| Prefixes.DefaultsListed | sparql-editor.js:35-49 | the seed table has exactly thirteen entries, and the button pushes them in the order bibo, dc, ec, faldo, keywords, owl, rdf, rdfs, skos, taxon, uniprotkb, up, xsd |
| Prefixes.Merge | sparql-editor.js:52-53 | after the merge the keys are the old keys plus every row's prefix; a key named by some row maps to the namespace of the last such row; every other key keeps its IRI |
| Prefixes.LastNamespace | sparql-editor.js:53 | there is no last row for a key exactly when no row names that key |
| Prefixes.LastNamespaceIsLastRow | sparql-editor.js:52-53 | the namespace a key ends up with is that of a row naming the key, and no later row names it (the last write wins) |
| Prefixes.ReadableAll | sparql-editor.js:52-53 | rows that all carry `prefix` and `namespace` are read in full, in order, with their values unchanged |
| Prefixes.MergeConcat | sparql-editor.js:52-53 | merging one response and then another equals merging their concatenation |
| Prefixes.MergeIdempotent | sparql-editor.js:52-53 | merging the same response twice changes nothing the second time |
| Prefixes.ReadablePrefix | sparql-editor.js:52-53 | `forEach` gets through exactly the rows before the first row that lacks `prefix` or `namespace` |
| Prefixes.SortedKeys | sparql-editor.js:63 | the sorted keys are every table key exactly once, strictly ascending |
| Prefixes.Pref.AsObject | sparql-editor.js:66-67 | the object `let pref = {}; pref[key] = value` builds: its only own key is `key`, holding the IRI, unless `key` is `__proto__`, whose assignment goes to the inherited setter and leaves the object empty |
| Prefixes.Entries | sparql-editor.js:64-65 | one pair per listed key, in the listed order, each holding `this.prefixes.get(key)` |
| Prefixes.PushAll | sparql-editor.js:63-69 | the button pushes one `Pref(key, table[key])` per table key, every key exactly once, in strictly ascending key order |
| Prefixes.PushAllRebuildsTable | sparql-editor.js:64-68 | spreading the pushed objects in order rebuilds the table, less a `__proto__` key, whose object is empty |
| Prefixes.ProtoKeyIsLost | sparql-editor.js:64-68 | a table whose only key is `__proto__` hands over no entry at all |
| Pattern.FindClose | sparql-editor.js:121 | the bracket ends at the first `]` after it opens, and when none is found the rest of the source has no `]` |
| Pattern.ReadClass | sparql-editor.js:120-121 | the class at the front of a source and how many characters it takes (at least one, at most the rest): a bracket of plain characters up to the first `]`, `.` for any character but a line terminator, or one literal character; definition: `None` for another metacharacter or a bracket with escapes, ranges, negation or no `]` |
| Pattern.Compile | sparql-editor.js:120-121 | definition: `new RegExp(src)` for the fragment, one atom per class read, made optional by a following `?`; `None` when any class is outside the fragment |
| Pattern.MatchesAt | sparql-editor.js:120-121 | definition: ECMAScript matching of the atoms from an offset: a required atom accepts the next character, an optional one is taken or skipped, and the match may end anywhere |
| Pattern.TestFrom | sparql-editor.js:121 | `test` succeeds exactly when the pattern matches at some offset at or after the start of the search |
| Pattern.Test | sparql-editor.js:121 | `test` on a fresh expression succeeds exactly when the pattern matches at some offset of the buffer |
| Pattern.CompileSafePrefix | sparql-editor.js:120 | a string whose only metacharacter is `.`, pasted into a source, contributes one plain atom per character, `.` becoming a wildcard |
| Pattern.CompileOptionalChar | sparql-editor.js:120 | a plain character followed by `?` compiles to one optional atom |
| Pattern.MatchesEscaped | sparql-editor.js:120 | matching a pasted string's atoms is fitting the string character by character, `.` fitting any non-line-terminator |
| Pattern.OptionalEitherWay | sparql-editor.js:120 | an optional atom may be taken or skipped, and nothing else |
| Injector.DeclarationSource | sparql-editor.js:119 | definition: the source `'PREFIX ' + key + ' ?: ?<' + value` |
| Injector.UsageSource | sparql-editor.js:121 | definition: the source `'[(\| \|\u00a0\|/]' + key + ':'`, with U+00A0 as the fourth bracket member |
| Injector.RegexTest | sparql-editor.js:121 | definition: `new RegExp(src, 'g').test(val)` on a fresh expression: the compiled pattern matches at some offset; false for a source outside the fragment |
| Injector.NeedsDeclaration | sparql-editor.js:121 | definition: the `if` condition, the declaration test failing and the usage test succeeding |
| Injector.CompileUsage | sparql-editor.js:121 | the usage source compiles to the bracket of `(`, `\|`, space, U+00A0 and `/`, then the key's atoms, then `:` |
| Injector.UsageTestMeaning | sparql-editor.js:121 | the usage expression succeeds exactly when `key:` occurs right after `(`, `\|`, space, U+00A0 or `/` |
| Injector.CompileDeclarationTail | sparql-editor.js:120 | ` ?: ?<` then the IRI compiles to optional space, `:`, optional space, `<`, then the IRI's atoms |
| Injector.CompileDeclaration | sparql-editor.js:120 | the declaration source compiles to `PREFIX `, the key, optional space, `:`, optional space, `<`, then the IRI |
| Injector.OptionalSpaces | sparql-editor.js:120 | the declaration pattern matches exactly where one of its four space-free variants matches |
| Injector.DeclarationMatchesAt | sparql-editor.js:120 | the declaration pattern matches at an offset exactly when one of the four spellings `PREFIX key[ ]:[ ]<iri` fits there |
| Injector.DeclarationTestMeaning | sparql-editor.js:120-121 | the declaration expression succeeds exactly when some spelling of `PREFIX key : <iri` occurs, `.` in key or IRI matching any non-line-terminator |
| Injector.Choose | sparql-editor.js:116-124 | the loop keeps exactly the visited keys that are used and not declared, and keeps ascending order |
| Injector.SelectPrefixes | sparql-editor.js:114-124 | the selected keys are exactly the table keys the buffer uses and does not declare with their IRI, strictly ascending; only table keys are selected |
| Injector.AddCommonPrefixes | sparql-editor.js:116-123 | one `Pref(key, table[key])` per selected key, each key once, ascending, and a key is pushed exactly when it is used and not declared; each push reaches `addPrefixes` as `Pref.AsObject`, which is `{}` for `__proto__` |
| Injector.SpellingIsDeclared | sparql-editor.js:120 | any spelling of the declaration written into the buffer counts as declared |
| Injector.DeclaredKeyNotSelected | sparql-editor.js:120-121 | a buffer holding `PREFIX key[ ]:[ ]<iri` for the table's IRI never gets `key` selected, whatever surrounds it |
| Injector.WrittenDeclarationIsDeclared | sparql-editor.js:120 | the text `PREFIX key: <iri>` anywhere in the buffer counts as a declaration |
| Injector.SecondRunAddsNoDuplicate | sparql-editor.js:120-122 | once the buffer holds `PREFIX key: <iri>` for every key picked earlier, a second run picks none of them again |
| Injector.UseAtOffsetZeroIgnored | sparql-editor.js:121 | `up:` at offset 0 is not a use: `up` is not selected for `up:Protein` |
| Injector.UseInsideLongerNameIgnored | sparql-editor.js:121 | `up:` at the end of `xup:` is not a use of `up` |
| Injector.UseAfterSpaceSelected | sparql-editor.js:121-122 | example: in the buffer `?p a up:protein`, with no declaration, `up` is selected whatever its IRI |
| Injector.DotsMeetOtherCharacters | sparql-editor.js:120 | example: `ec`'s IRI `http://purl.uniprot.org/enzyme/` fits the text `http://purlXuniprotXorg/enzyme/>`, an `X` meeting each dot |
| Injector.DotInIriMatchesAnyCharacter | sparql-editor.js:120 | example: `PREFIX ec: <http://purlXuniprotXorg/enzyme/>`, with `X` for each dot of `ec`'s IRI, still counts as declared, so `ec` is not selected |
| Editor.New | sparql-editor.js:35-49 | a new editor holds exactly the thirteen defaults and no click handler |
| Editor.Completes | sparql-editor.js:52-57 | definition: every row carries `prefix` and `namespace`, so `forEach` does not throw and the chain reaches the `.then` of line 57 |
| Editor.OnPrefixResponse | sparql-editor.js:50-73 | the prefix response merges the readable rows into the table, so it only adds keys, each named by some row; an unreadable response changes nothing; the click handler is installed exactly when every row was readable and there is a button |
| Editor.ReadableResponseMergesEveryRow | sparql-editor.js:51-73 | a response whose rows all carry `prefix` and `namespace` merges every row, in order, and installs the handler when there is a button |
| Editor.OnAddPrefixesClick | sparql-editor.js:61-71 | a click pushes nothing before the handler is installed, and afterwards every table key once, ascending, with its IRI; each push reaches `addPrefixes` as `Pref.AsObject`, which is `{}` for `__proto__` |
| Editor.UnreadableRowStopsMerge | sparql-editor.js:52-57 | rows after the first one lacking `prefix` or `namespace` have no effect, and the click handler is not installed |
| Editor.ReadableStopsAt | sparql-editor.js:52-53 | the readable rows stop at the first unreadable row |
| Editor.FailedFetchKeepsDefaults | sparql-editor.js:35-50 | a failed prefix fetch leaves the thirteen defaults, usable by the injector, and no click handler |
| Editor.DefaultsAreSafe | sparql-editor.js:35-49 | every default key and IRI has `.` as its only regular-expression metacharacter |
| Editor.MergeKeepsSafe | sparql-editor.js:53 | merging rows whose prefixes and namespaces have `.` as their only metacharacter keeps the table that way |
| Editor.IriTextIsSafe | sparql-editor.js:35-49 | text made only of letters, digits, `:`, `/`, `.`, `#` and `-` has `.` as its only regular-expression metacharacter |

## Left out

- Network I/O: every `fetch`, the query URLs, `encodeURIComponent`, the
  `format` and `ac=1` parameters, `.json()` and `.text()` decoding, and the
  promise chains. A fetch's outcome is a parameter: `Option<string>` for the
  completers and `Editor.PrefixResponse` for the prefix query.
- `console.error` in the completers' `.catch` is output only. The model keeps
  its effect: the result is `None`.
- Widget internals are foreign library calls. This covers the construction
  and options of Yasqe and Yasr, `forkAutocompleter` and the
  `Yasqe.defaults.autocompleters` filter (lines 9-12), the `queryResponse`
  handler and `setResponse` (lines 28-34), `yasr.config.prefixes` (line 58),
  and `collapsePrefixes` (line 70). `addPrefixes` is modelled only as the
  sequence of `Prefs` whose objects (`Pref.AsObject`) are handed to it.
- `addEventListener` (line 62) is DOM wiring. Its only modelled effect is
  the `clickHandlerInstalled` flag.
- Commented-out code (lines 25-27 and 131-135).
- `sparql-editor.js` has no code for an example-query dialog or a URL
  query-string bootstrap, so neither is part of this model.
- Strings are sequences of Unicode scalar values. JavaScript compares and
  matches UTF-16 code units, so above U+FFFF the sort order can differ and a
  `.` matches half a surrogate pair. Such keys and IRIs are not modelled
  faithfully.
- A result binding whose `prefix` or `namespace` object lacks `value`
  (JavaScript would store the key or IRI `undefined`). This model treats a
  field as either present with a string value or missing.
- Injector.SelectPrefixes: requires every key and IRI to have `.` as its
  only regular-expression metacharacter (`RegexSafe`). With `\`, `^`, `$`,
  `*`, `+`, `?`, `(`, `)`, `|` or `[` the source builds a different
  expression, or one that throws while the loop is running. `RegexSafe`
  also excludes a lone `]`, a lone `}` and a `{` that starts no quantifier,
  even though JavaScript without the `u` flag reads these literally. None
  of these keys or IRIs are modelled.
- Injector.AddCommonPrefixes: has the same regex-safety requirement as
  `SelectPrefixes`.
- Injector.Choose: has the same regex-safety requirement as
  `SelectPrefixes`, because it runs the loop body of lines 116-124 on the
  two compiled expressions.
- Injector.SecondRunAddsNoDuplicate: assumes the editor writes
  `PREFIX key: <iri>` for each pushed object. The editor's own text layout
  is not modelled.

=== FILE: editor.dfy ===
/** The `SparqlEditor` instance (sparql-editor.js lines 5-74): its prefix
    table starts at the defaults, the endpoint's answer to the prefix query
    is merged in, and only when that whole `.then` chain completes is the
    add-prefixes click handler installed. The fetch itself is a parameter:
    the answer arrives as a `PrefixResponse`. */
module Editor {

  import opened Wrappers
  import opened StringOrder
  import opened Pattern
  import opened Prefixes
  import opened Injector

  /** `endpointUrl` is the constructor's argument, kept as the instance
      keeps it (line 8); the fetches that use it are parameters here, so no
      operation reads it. */
  datatype Editor = Editor(
    endpointUrl: string,
    prefixes: Table,
    hasAddPrefixesButton: bool,
    clickHandlerInstalled: bool)

  /** How the prefix query came back. `Unreadable` covers a rejected fetch,
      a body that is not JSON and a JSON object without
      `results.bindings`: in each case the chain stops before any row. */
  datatype PrefixResponse = Unreadable | Rows(bindings: seq<RawBinding>)

  /** The state right after `new SparqlEditor(...)`, before any response. */
  function New(endpointUrl: string, hasAddPrefixesButton: bool): (e: Editor)
    ensures e.prefixes == Defaults && |e.prefixes| == 13
    ensures e.endpointUrl == endpointUrl && e.hasAddPrefixesButton == hasAddPrefixesButton
    ensures !e.clickHandlerInstalled
  {
    DefaultsListed();
    Editor(endpointUrl, Defaults, hasAddPrefixesButton, false)
  }

  /** All rows could be read, so the chain reached its last `.then`. */
  predicate Completes(response: PrefixResponse)
  {
    response.Rows? && forall i :: 0 <= i < |response.bindings| ==> WellFormed(response.bindings[i])
  }

  /** The continuation of the prefix fetch (lines 51-73). Rows are merged
      one at a time until a row lacking `prefix` or `namespace` throws; the
      click handler is installed only when nothing threw and there is a
      button. */
  function OnPrefixResponse(e: Editor, response: PrefixResponse): (e': Editor)
    ensures e'.endpointUrl == e.endpointUrl && e'.hasAddPrefixesButton == e.hasAddPrefixesButton
    ensures e.prefixes.Keys <= e'.prefixes.Keys
    ensures response.Unreadable? ==> e'.prefixes == e.prefixes
    ensures response.Rows? ==> e'.prefixes == Merge(e.prefixes, ReadablePrefix(response.bindings))
    ensures forall k :: k in e'.prefixes && k !in e.prefixes ==> exists i :: 0 <= i < |response.bindings| && response.bindings[i].prefix == Some(k)
    ensures e'.clickHandlerInstalled <==> e.clickHandlerInstalled || (Completes(response) && e.hasAddPrefixesButton)
  {
    match response
    case Unreadable => e
    case Rows(raws) =>
      var read := ReadablePrefix(raws);
      var merged := Merge(e.prefixes, read);
      forall k | k in merged && k !in e.prefixes
        ensures exists i :: 0 <= i < |raws| && raws[i].prefix == Some(k)
      {
        var b :| b in read && b.prefix == k;
        var i :| 0 <= i < |read| && read[i] == b;
        assert raws[i].prefix == Some(k);
      }
      var completes := |read| == |raws|;
      assert completes <==> Completes(response);
      e.(prefixes := merged, clickHandlerInstalled := e.clickHandlerInstalled || (completes && e.hasAddPrefixesButton))
  }

  /** A click on the add-prefixes button: nothing before the handler is
      installed, afterwards every key of the current table, ascending. */
  function OnAddPrefixesClick(e: Editor): (pushes: seq<Pref>)
    ensures !e.clickHandlerInstalled ==> pushes == []
    ensures e.clickHandlerInstalled ==> |pushes| == |e.prefixes|
    ensures forall i :: 0 <= i < |pushes| ==> pushes[i].key in e.prefixes && pushes[i].iri == e.prefixes[pushes[i].key]
    ensures forall i, j :: 0 <= i < j < |pushes| ==> Less(pushes[i].key, pushes[j].key)
  {
    if e.clickHandlerInstalled then PushAll(e.prefixes) else []
  }

  /** A response whose rows are all readable merges every row, in order,
      and installs the handler when there is a button. */
  lemma ReadableResponseMergesEveryRow(e: Editor, bindings: seq<Binding>)
    ensures OnPrefixResponse(e, Rows(AsRows(bindings)))
         == e.(prefixes := Merge(e.prefixes, bindings),
               clickHandlerInstalled := e.clickHandlerInstalled || e.hasAddPrefixesButton)
  {
    ReadableAll(bindings);
    assert Completes(Rows(AsRows(bindings)));
  }

  /** Rows after the first unreadable one have no effect on the table, and
      the handler is not installed. */
  lemma {:induction false} UnreadableRowStopsMerge(e: Editor, good: seq<RawBinding>, bad: RawBinding, rest: seq<RawBinding>)
    requires !WellFormed(bad)
    ensures OnPrefixResponse(e, Rows(good + [bad] + rest)).prefixes
         == Merge(e.prefixes, ReadablePrefix(good))
    ensures OnPrefixResponse(e, Rows(good + [bad] + rest)).clickHandlerInstalled == e.clickHandlerInstalled
  {
    ReadableStopsAt(good, bad, rest);
    var raws := good + [bad] + rest;
    assert raws[|good|] == bad;
    assert !Completes(Rows(raws));
  }

  lemma {:induction false} ReadableStopsAt(good: seq<RawBinding>, bad: RawBinding, rest: seq<RawBinding>)
    requires !WellFormed(bad)
    ensures ReadablePrefix(good + [bad] + rest) == ReadablePrefix(good)
    decreases |good|
  {
    if |good| == 0 {
      assert good + [bad] + rest == [bad] + rest;
    } else {
      assert (good + [bad] + rest)[0] == good[0];
      assert (good + [bad] + rest)[1..] == good[1..] + [bad] + rest;
      ReadableStopsAt(good[1..], bad, rest);
    }
  }

  /** Characters of the default keys and IRIs: letters, digits, `:`, `/`,
      `.`, `#` and `-`. None is a metacharacter other than `.`. */
  predicate IriChar(c: char)
  {
    ('a' <= c <= 'z') || ('A' <= c <= 'Z') || ('0' <= c <= '9')
    || c == ':' || c == '/' || c == '.' || c == '#' || c == '-'
  }

  predicate IriText(s: string)
  {
    forall i :: 0 <= i < |s| ==> IriChar(s[i])
  }

  lemma IriTextIsSafe(s: string)
    requires IriText(s)
    ensures RegexSafe(s)
  {
    forall i | 0 <= i < |s|
      ensures !IsUnsupportedMeta(s[i]) && s[i] != '['
    {
      assert IriChar(s[i]);
    }
  }

  lemma DefaultKeysSafe()
    ensures forall k :: k in Defaults ==> RegexSafe(k)
  {
    forall k | k in Defaults
      ensures RegexSafe(k)
    {
      assert IriText(k);
      IriTextIsSafe(k);
    }
  }

  // One fact per default IRI: its text uses only the characters of
  // `IriChar`.

  lemma IriOfUpIsIriText()
    ensures IriText(Defaults["up"])
  {
    assert IriText("http://purl.uniprot.org/core/");
  }

  lemma IriOfKeywordsIsIriText()
    ensures IriText(Defaults["keywords"])
  {
    assert IriText("http://purl.uniprot.org/keywords/");
  }

  lemma IriOfUniprotkbIsIriText()
    ensures IriText(Defaults["uniprotkb"])
  {
    assert IriText("http://purl.uniprot.org/uniprot/");
  }

  lemma IriOfTaxonIsIriText()
    ensures IriText(Defaults["taxon"])
  {
    assert IriText("http://purl.uniprot.org/taxonomy/");
  }

  lemma IriOfEcIsIriText()
    ensures IriText(Defaults["ec"])
  {
    assert IriText("http://purl.uniprot.org/enzyme/");
  }

  lemma IriOfRdfIsIriText()
    ensures IriText(Defaults["rdf"])
  {
    assert IriText("http://www.w3.org/1999/02/22-rdf-syntax-ns#");
  }

  lemma IriOfRdfsIsIriText()
    ensures IriText(Defaults["rdfs"])
  {
    assert IriText("http://www.w3.org/2000/01/rdf-schema#");
  }

  lemma IriOfSkosIsIriText()
    ensures IriText(Defaults["skos"])
  {
    assert IriText("http://www.w3.org/2004/02/skos/core#");
  }

  lemma IriOfOwlIsIriText()
    ensures IriText(Defaults["owl"])
  {
    assert IriText("http://www.w3.org/2002/07/owl#");
  }

  lemma IriOfBiboIsIriText()
    ensures IriText(Defaults["bibo"])
  {
    assert IriText("http://purl.org/ontology/bibo/");
  }

  lemma IriOfDcIsIriText()
    ensures IriText(Defaults["dc"])
  {
    assert IriText("http://purl.org/dc/terms/");
  }

  lemma IriOfXsdIsIriText()
    ensures IriText(Defaults["xsd"])
  {
    assert IriText("http://www.w3.org/2001/XMLSchema#");
  }

  lemma IriOfFaldoIsIriText()
    ensures IriText(Defaults["faldo"])
  {
    assert IriText("http://biohackathon.org/resource/faldo#");
  }

  lemma DefaultIrisSafe()
    ensures forall k :: k in Defaults ==> RegexSafe(Defaults[k])
  {
    IriOfUpIsIriText();
    IriOfKeywordsIsIriText();
    IriOfUniprotkbIsIriText();
    IriOfTaxonIsIriText();
    IriOfEcIsIriText();
    IriOfRdfIsIriText();
    IriOfRdfsIsIriText();
    IriOfSkosIsIriText();
    IriOfOwlIsIriText();
    IriOfBiboIsIriText();
    IriOfDcIsIriText();
    IriOfXsdIsIriText();
    IriOfFaldoIsIriText();
    forall k | k in Defaults
      ensures RegexSafe(Defaults[k])
    {
      IriTextIsSafe(Defaults[k]);
    }
  }

  /** Every default key and IRI is regex-safe, so the injector can run on
      the defaults. */
  lemma DefaultsAreSafe()
    ensures SafeTable(Defaults)
  {
    DefaultKeysSafe();
    DefaultIrisSafe();
  }

  /** A failed prefix fetch leaves the thirteen defaults in place, usable
      by the injector, and no click handler. */
  lemma FailedFetchKeepsDefaults(endpointUrl: string, hasAddPrefixesButton: bool)
    ensures var e := OnPrefixResponse(New(endpointUrl, hasAddPrefixesButton), Unreadable);
            e.prefixes == Defaults && SafeTable(e.prefixes) && !e.clickHandlerInstalled
  {
    DefaultsAreSafe();
  }

  /** Merging regex-safe rows into a regex-safe table keeps it regex-safe. */
  lemma MergeKeepsSafe(t: Table, bindings: seq<Binding>)
    requires SafeTable(t)
    requires forall i :: 0 <= i < |bindings| ==> RegexSafe(bindings[i].prefix) && RegexSafe(bindings[i].namespace)
    ensures SafeTable(Merge(t, bindings))
  {
    var r := Merge(t, bindings);
    forall k | k in r
      ensures RegexSafe(k) && RegexSafe(r[k])
    {
      if LastNamespace(bindings, k).None? {
        assert k in t;
      } else {
        LastNamespaceIsLastRow(bindings, k);
      }
    }
  }

}

=== FILE: injector.dfy ===
/** `addCommonPrefixesToQuery` (sparql-editor.js lines 112-125): for every
    key of the prefix table, in ascending order, the editor is asked to add
    `{key: iri}` when the buffer uses `key:` and does not already declare
    the key with its IRI. Both tests are regular expressions built by
    pasting the key and the IRI, unescaped, into a fixed source. */
module Injector {

  import opened Wrappers
  import opened StringOrder
  import opened Pattern
  import opened Prefixes

  const NoBreakSpace: char := '\U{A0}'

  /** The members of the bracket `[(| |\u00a0|/]`: the only characters the
      usage test accepts right before `key:`. There is no start-of-buffer
      alternative and no tab or line feed. */
  const UseBoundary: set<char> := {'(', '|', ' ', NoBreakSpace, '/'}

  /** `'PREFIX ' + key + ' ?: ?<' + value`. */
  function DeclarationSource(key: string, iri: string): string
  {
    "PREFIX " + key + " ?: ?<" + iri
  }

  /** `'[(| |\u00a0|/]' + key + ':'`. */
  function UsageSource(key: string): string
  {
    "[(| |" + [NoBreakSpace] + "|/]" + key + ":"
  }

  /** `new RegExp(src, 'g').test(buf)` for a source inside the fragment. */
  predicate RegexTest(src: string, buf: string)
  {
    match Compile(src)
    case Some(p) => Test(p, buf)
    case None => false
  }

  /** `key:` occurs at offset `i` of the buffer, right after a boundary
      character; a `.` in the key stands for any character but a line
      terminator. */
  predicate UsedAt(buf: string, key: string, i: int)
  {
    1 <= i && FitsAt(key + ":", buf, i) && buf[i - 1] in UseBoundary
  }

  ghost predicate IsUsed(buf: string, key: string)
  {
    exists i :: UsedAt(buf, key, i)
  }

  function Space(present: bool): string
  {
    if present then " " else ""
  }

  /** One of the four spellings `PREFIX key:<iri`, `PREFIX key :<iri`,
      `PREFIX key: <iri` and `PREFIX key : <iri`. */
  function DeclarationText(key: string, iri: string, spaceBefore: bool, spaceAfter: bool): string
  {
    "PREFIX " + key + Space(spaceBefore) + ":" + Space(spaceAfter) + "<" + iri
  }

  /** Some spelling of the declaration occurs in the buffer, a `.` in the
      key or the IRI standing for any character but a line terminator.
      Nothing is required after the IRI, so a longer IRI also counts. */
  ghost predicate IsDeclared(buf: string, key: string, iri: string)
  {
    exists i: nat, spaceBefore: bool, spaceAfter: bool :: FitsAt(DeclarationText(key, iri, spaceBefore, spaceAfter), buf, i)
  }

  function Lit(c: char): Atom
  {
    Atom(Exactly(c), false)
  }

  function Opt(c: char): Atom
  {
    Atom(Exactly(c), true)
  }

  lemma CompileUsage(key: string)
    requires RegexSafe(key)
    ensures Compile(UsageSource(key)) == Some([Atom(OneOf(UseBoundary), false)] + Escape(key + ":"))
  {
    var src := UsageSource(key);
    var tail := key + ":";
    assert src == "[(| |" + [NoBreakSpace] + "|/]" + tail;
    assert src[0] == '[';
    assert src[1] != ']' && src[2] != ']' && src[3] != ']' && src[4] != ']';
    assert src[5] != ']' && src[6] != ']' && src[7] != ']' && src[8] == ']';
    assert FindClose(src, 8) == Some(8);
    assert FindClose(src, 7) == Some(8);
    assert FindClose(src, 6) == Some(8);
    assert FindClose(src, 5) == Some(8);
    assert FindClose(src, 4) == Some(8);
    assert FindClose(src, 3) == Some(8);
    assert FindClose(src, 2) == Some(8);
    assert FindClose(src, 1) == Some(8);
    var body := src[1..8];
    assert body == "(| |" + [NoBreakSpace] + "|/";
    assert (set i | 0 <= i < |body| :: body[i]) == UseBoundary by {
      assert body[0] == '(' && body[1] == '|' && body[2] == ' ' && body[4] == NoBreakSpace && body[6] == '/';
    }
    assert ReadClass(src) == Some((OneOf(UseBoundary), 9));
    assert src[9..] == tail;
    assert RegexSafe(tail);
    assert tail[0] != '?';
    CompileSafePrefix(tail, "");
    assert tail + "" == tail;
    assert Compile("") == Some([]);
    assert Escape(tail) + [] == Escape(tail);
  }

  /** The usage regular expression finds exactly the uses of `key:`. */
  lemma UsageTestMeaning(buf: string, key: string)
    requires RegexSafe(key)
    ensures RegexTest(UsageSource(key), buf) <==> IsUsed(buf, key)
  {
    CompileUsage(key);
    var p := [Atom(OneOf(UseBoundary), false)] + Escape(key + ":");
    forall j: nat | j <= |buf|
      ensures MatchesAt(p, buf, j) <==> UsedAt(buf, key, j + 1)
    {
      UsageMatchesAt(buf, key, j);
    }
    if IsUsed(buf, key) {
      var i :| UsedAt(buf, key, i);
      assert MatchesFrom(p, buf, 0, i - 1);
    }
    if RegexTest(UsageSource(key), buf) {
      var j :| MatchesFrom(p, buf, 0, j);
      assert UsedAt(buf, key, j + 1);
    }
  }

  /** At one offset: the bracket takes the character there, and `key:`
      must follow it. */
  lemma UsageMatchesAt(buf: string, key: string, j: nat)
    requires RegexSafe(key)
    requires j <= |buf|
    ensures MatchesAt([Atom(OneOf(UseBoundary), false)] + Escape(key + ":"), buf, j) <==> UsedAt(buf, key, j + 1)
  {
    var p := [Atom(OneOf(UseBoundary), false)] + Escape(key + ":");
    assert p[1..] == Escape(key + ":") + [];
    if j < |buf| {
      MatchesEscaped(key + ":", [], buf, j + 1);
    }
  }

  function SpaceAtoms(present: bool): seq<Atom>
  {
    if present then [Lit(' ')] else []
  }

  lemma EscapeDeclaration(key: string, iri: string, spaceBefore: bool, spaceAfter: bool)
    ensures Escape(DeclarationText(key, iri, spaceBefore, spaceAfter))
         == Escape("PREFIX " + key) + SpaceAtoms(spaceBefore) + [Lit(':')] + SpaceAtoms(spaceAfter) + [Lit('<')] + Escape(iri)
  {
    var a := "PREFIX " + key;
    EscapeConcat(a, Space(spaceBefore));
    EscapeConcat(a + Space(spaceBefore), ":");
    EscapeConcat(a + Space(spaceBefore) + ":", Space(spaceAfter));
    EscapeConcat(a + Space(spaceBefore) + ":" + Space(spaceAfter), "<");
    EscapeConcat(a + Space(spaceBefore) + ":" + Space(spaceAfter) + "<", iri);
    assert Escape(":") == [Lit(':')];
    assert Escape("<") == [Lit('<')];
    assert Escape(Space(spaceBefore)) == SpaceAtoms(spaceBefore);
    assert Escape(Space(spaceAfter)) == SpaceAtoms(spaceAfter);
  }

  lemma RegexSafeConcat(a: string, b: string)
    requires RegexSafe(a) && RegexSafe(b)
    ensures RegexSafe(a + b)
  {
    forall i | 0 <= i < |a + b|
      ensures !IsUnsupportedMeta((a + b)[i]) && (a + b)[i] != '['
    {
      if i >= |a| {
        assert (a + b)[i] == b[i - |a|];
      } else {
        assert (a + b)[i] == a[i];
      }
    }
  }

  lemma CompileIriAfterBracket(iri: string)
    requires RegexSafe(iri)
    ensures Compile("<" + iri) == Some([Lit('<')] + Escape(iri))
  {
    var s5 := "<" + iri;
    RegexSafeConcat("<", iri);
    CompileSafePrefix(s5, "");
    assert s5 + "" == s5;
    assert Compile("") == Some([]);
    EscapeConcat("<", iri);
    assert Escape("<") == [Lit('<')];
    assert Compile(s5 + "") == Some(Escape(s5) + []);
    assert Escape(s5) + [] == Escape(s5);
  }

  lemma CompileColonSpace(rest: string, p: seq<Atom>)
    requires Compile(rest) == Some(p)
    ensures Compile(": ?" + rest) == Some([Lit(':'), Opt(' ')] + p)
  {
    var s3 := " ?" + rest;
    assert s3 == [' ', '?'] + rest;
    CompileOptionalChar(' ', rest);
    assert Compile(s3) == Some([Opt(' ')] + p);
    CompileSafePrefix(":", s3);
    assert Escape(":") == [Lit(':')];
    assert ":" + s3 == ": ?" + rest;
    assert [Lit(':')] + ([Opt(' ')] + p) == [Lit(':'), Opt(' ')] + p;
  }

  /** The part of the declaration source after the key. */
  lemma CompileDeclarationTail(iri: string)
    requires RegexSafe(iri)
    ensures Compile(" ?: ?<" + iri) == Some([Opt(' '), Lit(':'), Opt(' '), Lit('<')] + Escape(iri))
  {
    var tail := [Lit('<')] + Escape(iri);
    CompileIriAfterBracket(iri);
    CompileColonSpace("<" + iri, tail);
    var s2 := ": ?" + ("<" + iri);
    CompileOptionalChar(' ', s2);
    TailSourceShape(iri);
    TailAtomsShape(Escape(iri));
  }

  // Regrouping the source and the atoms of the declaration's tail.

  lemma TailSourceShape(iri: string)
    ensures [' ', '?'] + (": ?" + ("<" + iri)) == " ?: ?<" + iri
  {
  }

  lemma TailAtomsShape(p: seq<Atom>)
    ensures [Opt(' ')] + ([Lit(':'), Opt(' ')] + ([Lit('<')] + p)) == [Opt(' '), Lit(':'), Opt(' '), Lit('<')] + p
  {
  }

  lemma CompileDeclaration(key: string, iri: string)
    requires RegexSafe(key) && RegexSafe(iri)
    ensures Compile(DeclarationSource(key, iri))
         == Some(Escape("PREFIX " + key) + [Opt(' '), Lit(':'), Opt(' '), Lit('<')] + Escape(iri))
  {
    var head := "PREFIX " + key;
    RegexSafeConcat("PREFIX ", key);
    var s0 := " ?: ?<" + iri;
    assert DeclarationSource(key, iri) == head + s0;
    CompileSafePrefix(head, s0);
    CompileDeclarationTail(iri);
    assert Escape(head) + ([Opt(' '), Lit(':'), Opt(' '), Lit('<')] + Escape(iri))
        == Escape(head) + [Opt(' '), Lit(':'), Opt(' '), Lit('<')] + Escape(iri);
  }

  /** One optional space: a match is a match with or without the space. */
  lemma OneSpace(x: seq<Atom>, y: seq<Atom>, buf: string, j: nat)
    requires j <= |buf|
    requires forall n :: 0 <= n < |x| ==> !x[n].optional
    ensures MatchesAt(x + [Opt(' ')] + y, buf, j) <==> exists present: bool :: MatchesAt(x + SpaceAtoms(present) + y, buf, j)
  {
    OptionalEitherWay(x, Exactly(' '), y, buf, j);
    assert x + [Lit(' ')] + y == x + SpaceAtoms(true) + y;
    assert x + y == x + SpaceAtoms(false) + y;
  }

  /** The two optional spaces of the declaration pattern: a match is a
      match of one of the four space-free patterns. */
  lemma OptionalSpaces(x: seq<Atom>, y: seq<Atom>, buf: string, j: nat)
    requires j <= |buf|
    requires forall n :: 0 <= n < |x| ==> !x[n].optional
    ensures MatchesAt(x + [Opt(' '), Lit(':'), Opt(' '), Lit('<')] + y, buf, j)
        <==> exists sb: bool, sa: bool :: MatchesAt(x + SpaceAtoms(sb) + [Lit(':')] + SpaceAtoms(sa) + [Lit('<')] + y, buf, j)
  {
    var q := [Lit(':'), Opt(' '), Lit('<')] + y;
    var r := [Lit('<')] + y;
    assert x + [Opt(' '), Lit(':'), Opt(' '), Lit('<')] + y == x + [Opt(' ')] + q;
    OneSpace(x, q, buf, j);
    forall sb: bool
      ensures MatchesAt(x + SpaceAtoms(sb) + q, buf, j)
          <==> exists sa: bool :: MatchesAt(x + SpaceAtoms(sb) + [Lit(':')] + SpaceAtoms(sa) + [Lit('<')] + y, buf, j)
    {
      var z := x + SpaceAtoms(sb) + [Lit(':')];
      assert forall n :: 0 <= n < |z| ==> !z[n].optional;
      assert x + SpaceAtoms(sb) + q == z + [Opt(' ')] + r;
      OneSpace(z, r, buf, j);
      forall sa: bool
        ensures z + SpaceAtoms(sa) + r == x + SpaceAtoms(sb) + [Lit(':')] + SpaceAtoms(sa) + [Lit('<')] + y
      {
      }
    }
  }

  /** The compiled declaration pattern matches at `j` exactly when one of
      the four spellings fits there. */
  lemma DeclarationMatchesAt(buf: string, key: string, iri: string, j: nat)
    requires j <= |buf|
    ensures MatchesAt(Escape("PREFIX " + key) + [Opt(' '), Lit(':'), Opt(' '), Lit('<')] + Escape(iri), buf, j)
        <==> exists spaceBefore: bool, spaceAfter: bool :: FitsAt(DeclarationText(key, iri, spaceBefore, spaceAfter), buf, j)
  {
    var x := Escape("PREFIX " + key);
    var y := Escape(iri);
    OptionalSpaces(x, y, buf, j);
    forall sb: bool, sa: bool
      ensures MatchesAt(x + SpaceAtoms(sb) + [Lit(':')] + SpaceAtoms(sa) + [Lit('<')] + y, buf, j)
          <==> FitsAt(DeclarationText(key, iri, sb, sa), buf, j)
    {
      var w := DeclarationText(key, iri, sb, sa);
      EscapeDeclaration(key, iri, sb, sa);
      MatchesEscaped(w, [], buf, j);
      assert Escape(w) + [] == Escape(w);
    }
  }

  /** The declaration regular expression finds exactly the declarations of
      `key` with (a pattern-reading of) `iri`. */
  lemma DeclarationTestMeaning(buf: string, key: string, iri: string)
    requires RegexSafe(key) && RegexSafe(iri)
    ensures RegexTest(DeclarationSource(key, iri), buf) <==> IsDeclared(buf, key, iri)
  {
    CompileDeclaration(key, iri);
    var p := Escape("PREFIX " + key) + [Opt(' '), Lit(':'), Opt(' '), Lit('<')] + Escape(iri);
    if IsDeclared(buf, key, iri) {
      var i: nat, sb: bool, sa: bool :| FitsAt(DeclarationText(key, iri, sb, sa), buf, i);
      DeclarationMatchesAt(buf, key, iri, i);
      assert MatchesFrom(p, buf, 0, i);
    }
    if RegexTest(DeclarationSource(key, iri), buf) {
      var j :| MatchesFrom(p, buf, 0, j);
      DeclarationMatchesAt(buf, key, iri, j);
    }
  }

  /** Every key and IRI of the table can be pasted into a regular
      expression without changing its shape. */
  predicate SafeTable(t: Table)
  {
    forall k :: k in t ==> RegexSafe(k) && RegexSafe(t[k])
  }

  /** The condition of line 121, evaluated with the two regular
      expressions. */
  predicate NeedsDeclaration(buf: string, key: string, iri: string)
  {
    !RegexTest(DeclarationSource(key, iri), buf) && RegexTest(UsageSource(key), buf)
  }

  /** The loop of lines 116-124 over the given keys. */
  function Choose(buf: string, t: Table, keys: seq<string>): (chosen: seq<string>)
    requires SafeTable(t)
    requires forall k :: k in keys ==> k in t
    ensures forall k :: k in chosen <==> k in keys && IsUsed(buf, k) && !IsDeclared(buf, k, t[k])
    ensures StrictlyAscending(keys) ==> StrictlyAscending(chosen)
    decreases |keys|
  {
    if |keys| == 0 then []
    else
      var k := keys[0];
      var rest := Choose(buf, t, keys[1..]);
      assert forall x :: x in keys <==> x == k || x in keys[1..];
      UsageTestMeaning(buf, k);
      DeclarationTestMeaning(buf, k, t[k]);
      if NeedsDeclaration(buf, k, t[k]) then
        assert StrictlyAscending(keys) ==> forall x :: x in rest ==> Less(k, x) by {
          if StrictlyAscending(keys) {
            forall x | x in rest
              ensures Less(k, x)
            {
              var i :| 1 <= i < |keys| && keys[i] == x;
            }
          }
        }
        [k] + rest
      else rest
  }

  /** The keys `addCommonPrefixesToQuery` passes to the editor: exactly the
      table's keys that the buffer uses and does not yet declare with their
      IRI, in ascending order. The table is only read. */
  function SelectPrefixes(buf: string, t: Table): (keys: seq<string>)
    requires SafeTable(t)
    ensures StrictlyAscending(keys)
    ensures forall k :: k in keys <==> k in t && IsUsed(buf, k) && !IsDeclared(buf, k, t[k])
  {
    Choose(buf, t, SortedKeys(t))
  }

  /** What `addCommonPrefixesToQuery` hands to the editor, one call per
      selected key: the key and its IRI, written into a fresh object
      (`Pref.AsObject`). */
  function AddCommonPrefixes(buf: string, t: Table): (pushes: seq<Pref>)
    requires SafeTable(t)
    ensures forall i :: 0 <= i < |pushes| ==> pushes[i].key in t && pushes[i].iri == t[pushes[i].key]
    ensures forall i, j :: 0 <= i < j < |pushes| ==> Less(pushes[i].key, pushes[j].key)
    ensures forall k :: (exists i :: 0 <= i < |pushes| && pushes[i].key == k)
                        <==> k in t && IsUsed(buf, k) && !IsDeclared(buf, k, t[k])
  {
    var keys := SelectPrefixes(buf, t);
    assert forall k :: k in keys ==> k in t;
    var pushes := Entries(t, keys);
    EntriesOfKeys(t, keys, pushes);
    pushes
  }

  /** A spelling of the declaration written out in the buffer is found:
      every character, `.` included, fits itself. */
  lemma SpellingIsDeclared(before: string, key: string, iri: string, after: string, spaceBefore: bool, spaceAfter: bool)
    ensures IsDeclared(before + DeclarationText(key, iri, spaceBefore, spaceAfter) + after, key, iri)
  {
    FitsItself(DeclarationText(key, iri, spaceBefore, spaceAfter), before, after);
  }

  /** A spelling of `key`'s declaration with its own IRI in the buffer stops
      the selector from picking `key`, whatever surrounds it. */
  lemma DeclaredKeyNotSelected(t: Table, key: string, before: string, after: string, spaceBefore: bool, spaceAfter: bool)
    requires SafeTable(t) && key in t
    ensures key !in SelectPrefixes(before + DeclarationText(key, t[key], spaceBefore, spaceAfter) + after, t)
  {
    SpellingIsDeclared(before, key, t[key], after, spaceBefore, spaceAfter);
  }

  /** The declaration the editor writes, `PREFIX key: <iri>`. */
  function WrittenDeclaration(key: string, iri: string): string
  {
    "PREFIX " + key + ": <" + iri + ">"
  }

  /** `w` occurs in `s` at offset `i`. */
  predicate OccursAt(w: string, s: string, i: int)
  {
    0 <= i <= |s| - |w| && s[i..i + |w|] == w
  }

  /** The written declaration is the selector's second spelling followed by
      the closing `>`. */
  lemma WrittenDeclarationSpelling(key: string, iri: string)
    ensures WrittenDeclaration(key, iri) == DeclarationText(key, iri, false, true) + ">"
  {
  }

  /** A written declaration anywhere in the buffer counts as declared. */
  lemma WrittenDeclarationIsDeclared(buf: string, key: string, iri: string, i: int)
    requires OccursAt(WrittenDeclaration(key, iri), buf, i)
    ensures IsDeclared(buf, key, iri)
  {
    var w := WrittenDeclaration(key, iri);
    var before, after := buf[..i], buf[i + |w|..];
    assert buf == before + buf[i..i + |w|] + after;
    WrittenDeclarationSpelling(key, iri);
    assert buf == before + DeclarationText(key, iri, false, true) + (">" + after);
    SpellingIsDeclared(before, key, iri, ">" + after, false, true);
  }

  /** Running the selector again on a buffer that now holds the written
      declaration of every key picked the first time picks none of them a
      second time. */
  lemma SecondRunAddsNoDuplicate(first: string, second: string, t: Table)
    requires SafeTable(t)
    requires forall k :: k in SelectPrefixes(first, t) ==> exists i :: OccursAt(WrittenDeclaration(k, t[k]), second, i)
    ensures forall k :: k in SelectPrefixes(second, t) ==> k !in SelectPrefixes(first, t)
  {
    forall k | k in SelectPrefixes(first, t)
      ensures IsDeclared(second, k, t[k])
    {
      var i :| OccursAt(WrittenDeclaration(k, t[k]), second, i);
      WrittenDeclarationIsDeclared(second, k, t[k], i);
    }
  }

  /** `up:` at the very start of the buffer is not a use of `up`. */
  lemma UseAtOffsetZeroIgnored(t: Table)
    requires SafeTable(t) && "up" in t
    ensures "up" !in SelectPrefixes("up:Protein", t)
  {
    var buf := "up:Protein";
    forall i | 1 <= i < |buf|
      ensures buf[i] != 'u'
    {
    }
    forall i
      ensures !UsedAt(buf, "up", i)
    {
    }
  }

  /** `up:` ending a longer name, as in `xup:`, is not a use of `up`. */
  lemma UseInsideLongerNameIgnored(t: Table)
    requires SafeTable(t) && "up" in t
    ensures "up" !in SelectPrefixes("?p a xup:Protein", t)
  {
    var buf := "?p a xup:Protein";
    forall i | 0 <= i < |buf| && i != 6
      ensures buf[i] != 'u'
    {
    }
    forall i
      ensures !UsedAt(buf, "up", i)
    {
      if 1 <= i && FitsAt("up" + ":", buf, i) {
        assert CharFits(("up" + ":")[0], buf[i]);
        assert i == 6;
      }
    }
  }

  /** `up:` after a space, with no declaration in the buffer, is picked. */
  lemma UseAfterSpaceSelected(t: Table)
    requires SafeTable(t) && "up" in t
    ensures "up" in SelectPrefixes("?p a up:protein", t)
  {
    var buf := "?p a up:protein";
    assert UsedAt(buf, "up", 5) by {
      assert buf[4] == ' ';
      assert buf[5] == 'u' && buf[6] == 'p' && buf[7] == ':';
    }
    forall i: nat, sb: bool, sa: bool
      ensures !FitsAt(DeclarationText("up", t["up"], sb, sa), buf, i)
    {
      if i < |buf| {
        assert DeclarationText("up", t["up"], sb, sa)[0] == 'P';
      }
    }
  }

  /** A `.` of the pattern is met by `X` in the buffer. */
  lemma DotsMeetOtherCharacters()
    ensures FitsAt("http://purl.uniprot.org/enzyme/", "http://purlXuniprotXorg/enzyme/>", 0)
  {
  }

  /** The IRI is pasted into the pattern unescaped, so each `.` in it
      matches any character: a declaration of `ec` with `X` where the
      default IRI has dots still counts, and `ec` is not picked. */
  lemma DotInIriMatchesAnyCharacter(t: Table)
    requires SafeTable(t) && "ec" in t && t["ec"] == "http://purl.uniprot.org/enzyme/"
    ensures "ec" !in SelectPrefixes("PREFIX ec: <http://purlXuniprotXorg/enzyme/>", t)
  {
    DeclarationWithOtherCharacters();
    assert IsDeclared("PREFIX ec: <http://purlXuniprotXorg/enzyme/>", "ec", t["ec"]);
  }

  // The fit above, assembled from two pieces: the declaration's head
  // `PREFIX ec: <` fits itself, and the IRI fits the written text after it.

  lemma DeclarationWithOtherCharacters()
    ensures FitsAt(DeclarationText("ec", "http://purl.uniprot.org/enzyme/", false, true),
                   "PREFIX ec: <http://purlXuniprotXorg/enzyme/>", 0)
  {
    var head := "PREFIX ec: <";
    var iri := "http://purl.uniprot.org/enzyme/";
    var written := "http://purlXuniprotXorg/enzyme/>";
    HeadFits();
    IriFitsAfterHead();
    FitsConcat(head, iri, head + written, 0);
    EcDeclarationText();
    BufferPieces();
  }

  lemma EcDeclarationText()
    ensures DeclarationText("ec", "http://purl.uniprot.org/enzyme/", false, true)
         == "PREFIX ec: <" + "http://purl.uniprot.org/enzyme/"
  {
  }

  lemma BufferPieces()
    ensures "PREFIX ec: <" + "http://purlXuniprotXorg/enzyme/>" == "PREFIX ec: <http://purlXuniprotXorg/enzyme/>"
  {
  }

  lemma HeadFits()
    ensures FitsAt("PREFIX ec: <", "PREFIX ec: <" + "http://purlXuniprotXorg/enzyme/>", 0)
  {
    FitsItself("PREFIX ec: <", "", "http://purlXuniprotXorg/enzyme/>");
    assert "" + "PREFIX ec: <" == "PREFIX ec: <";
  }

  lemma IriFitsAfterHead()
    ensures FitsAt("http://purl.uniprot.org/enzyme/", "PREFIX ec: <" + "http://purlXuniprotXorg/enzyme/>", 12)
  {
    DotsMeetOtherCharacters();
    FitsAfter("http://purl.uniprot.org/enzyme/", "PREFIX ec: <", "http://purlXuniprotXorg/enzyme/>", 0);
  }

}

=== FILE: pattern.dfy ===
/** The fragment of JavaScript regular expressions that the prefix injector
    builds (sparql-editor.js lines 120-121): literal characters, `.`, a
    bracketed set of literal characters, and `?` after any of these. A source
    outside the fragment compiles to `None`. Matching follows ECMAScript
    without flags other than `g`: `.` matches any character except a line
    terminator, and `test` succeeds when the pattern matches at some offset. */
module Pattern {

  import opened Wrappers

  /** What one position of the pattern accepts. */
  datatype CharClass = Exactly(c: char) | AnyButLineTerminator | OneOf(chars: set<char>)

  /** One position of the pattern, optional when followed by `?`. */
  datatype Atom = Atom(accepts: CharClass, optional: bool)

  predicate IsLineTerminator(c: char)
  {
    c == '\n' || c == '\r' || c == '\U{2028}' || c == '\U{2029}'
  }

  predicate Accepts(k: CharClass, c: char)
  {
    match k
    case Exactly(d) => c == d
    case AnyButLineTerminator => !IsLineTerminator(c)
    case OneOf(chars) => c in chars
  }

  /** Characters the fragment does not read as literals outside a bracket,
      other than `.` and `[`, which it supports. Without the `u` flag,
      JavaScript reads a lone `]`, a lone `}` and a `{` that starts no
      quantifier literally; the fragment excludes them all the same. */
  predicate IsUnsupportedMeta(c: char)
  {
    c == '\\' || c == '^' || c == '$' || c == '*' || c == '+' || c == '?'
    || c == '(' || c == ')' || c == ']' || c == '{' || c == '}' || c == '|'
  }

  /** A string whose only regular-expression metacharacter is `.`: inserted
      into a source unescaped, it reads as one atom per character. */
  predicate RegexSafe(s: string)
  {
    forall i :: 0 <= i < |s| ==> !IsUnsupportedMeta(s[i]) && s[i] != '['
  }

  /** Index of the first `]` at or after `from`. */
  function FindClose(src: string, from: nat): (r: Option<nat>)
    ensures r.Some? ==> from <= r.value < |src| && src[r.value] == ']'
    ensures r.Some? ==> forall k :: from <= k < r.value ==> src[k] != ']'
    ensures r.None? ==> forall k :: from <= k < |src| ==> src[k] != ']'
    decreases |src| - from
  {
    if from >= |src| then None
    else if src[from] == ']' then Some(from)
    else FindClose(src, from + 1)
  }

  /** A bracket body listing plain characters only: no escapes, ranges or
      negation. */
  predicate PlainBracketBody(body: string)
  {
    forall i :: 0 <= i < |body| ==> body[i] != '\\' && body[i] != '-' && body[i] != '^' && body[i] != '['
  }

  /** The character class at the front of a source and the number of
      source characters it takes, or `None` outside the fragment. */
  function ReadClass(src: string): (r: Option<(CharClass, nat)>)
    requires |src| > 0
    ensures r.Some? ==> 0 < r.value.1 <= |src|
  {
    if src[0] == '[' then
      match FindClose(src, 1)
      case None => None
      case Some(j) =>
        var body := src[1..j];
        if PlainBracketBody(body) then Some((OneOf(set i | 0 <= i < |body| :: body[i]), j + 1)) else None
    else if IsUnsupportedMeta(src[0]) then None
    else if src[0] == '.' then Some((AnyButLineTerminator, 1))
    else Some((Exactly(src[0]), 1))
  }

  function Prepend(a: Atom, rest: Option<seq<Atom>>): Option<seq<Atom>>
  {
    match rest
    case None => None
    case Some(p) => Some([a] + p)
  }

  /** The pattern a regular-expression source denotes, or `None` when the
      source lies outside the fragment. */
  function Compile(src: string): Option<seq<Atom>>
    decreases |src|
  {
    if |src| == 0 then Some([])
    else
      match ReadClass(src)
      case None => None
      case Some((k, n)) =>
        if n < |src| && src[n] == '?' then Prepend(Atom(k, true), Compile(src[n + 1..]))
        else Prepend(Atom(k, false), Compile(src[n..]))
  }

  /** `p` matches `s` starting at offset `i` (a match may end anywhere). */
  predicate MatchesAt(p: seq<Atom>, s: string, i: nat)
    requires i <= |s|
    decreases |p|
  {
    if |p| == 0 then true
    else
      (i < |s| && Accepts(p[0].accepts, s[i]) && MatchesAt(p[1..], s, i + 1))
      || (p[0].optional && MatchesAt(p[1..], s, i))
  }

  /** `p` matches `s` at offset `i`, which is at or after `from`. */
  predicate MatchesFrom(p: seq<Atom>, s: string, from: nat, i: int)
  {
    from <= i <= |s| && MatchesAt(p, s, i)
  }

  /** `RegExp.prototype.test` with the search starting at `from`. */
  function TestFrom(p: seq<Atom>, s: string, from: nat): (found: bool)
    requires from <= |s|
    ensures found <==> exists i :: MatchesFrom(p, s, from, i)
    decreases |s| - from
  {
    if MatchesAt(p, s, from) then
      assert MatchesFrom(p, s, from, from);
      true
    else if from == |s| then false
    else
      var found := TestFrom(p, s, from + 1);
      assert found ==> exists i :: MatchesFrom(p, s, from, i) by {
        if found {
          var i :| MatchesFrom(p, s, from + 1, i);
          assert MatchesFrom(p, s, from, i);
        }
      }
      assert !found ==> forall i :: !MatchesFrom(p, s, from, i) by {
        if !found {
          forall i
            ensures !MatchesFrom(p, s, from, i)
          {
            if i != from {
              assert !MatchesFrom(p, s, from + 1, i);
            }
          }
        }
      }
      found
  }

  /** `RegExp.prototype.test` on a fresh expression: a match at some offset. */
  function Test(p: seq<Atom>, s: string): (found: bool)
    ensures found <==> exists i :: MatchesFrom(p, s, 0, i)
  {
    TestFrom(p, s, 0)
  }

  /** How a regex-safe pattern character treats a buffer character. */
  predicate CharFits(pc: char, c: char)
  {
    if pc == '.' then !IsLineTerminator(c) else c == pc
  }

  /** A regex-safe string `w`, read as a pattern, matches `s` at `i`. */
  predicate FitsAt(w: string, s: string, i: nat)
  {
    i + |w| <= |s| && forall k :: 0 <= k < |w| ==> CharFits(w[k], s[i + k])
  }

  /** Every string fits itself wherever it is written. */
  lemma FitsItself(w: string, before: string, after: string)
    ensures FitsAt(w, before + w + after, |before|)
  {
    var s := before + w + after;
    forall k | 0 <= k < |w|
      ensures CharFits(w[k], s[|before| + k])
    {
      assert s[|before| + k] == w[k];
    }
  }

  /** A fit survives putting text in front of the buffer. */
  lemma FitsAfter(w: string, before: string, s: string, i: nat)
    requires FitsAt(w, s, i)
    ensures FitsAt(w, before + s, |before| + i)
  {
    forall k | 0 <= k < |w|
      ensures CharFits(w[k], (before + s)[|before| + i + k])
    {
      assert (before + s)[|before| + i + k] == s[i + k];
    }
  }

  /** Two fits side by side are a fit of the concatenation. */
  lemma FitsConcat(a: string, b: string, s: string, i: nat)
    requires FitsAt(a, s, i) && FitsAt(b, s, i + |a|)
    ensures FitsAt(a + b, s, i)
  {
    forall k | 0 <= k < |a + b|
      ensures CharFits((a + b)[k], s[i + k])
    {
      if k >= |a| {
        assert (a + b)[k] == b[k - |a|];
      }
    }
  }

  /** The atom a character of a regex-safe string stands for. */
  function AtomFor(c: char): Atom
  {
    Atom(if c == '.' then AnyButLineTerminator else Exactly(c), false)
  }

  /** The atoms a regex-safe string stands for. */
  function Escape(w: string): (p: seq<Atom>)
    ensures |p| == |w|
    ensures forall k :: 0 <= k < |w| ==> !p[k].optional
    ensures forall k :: 0 <= k < |w| ==> forall c :: Accepts(p[k].accepts, c) <==> CharFits(w[k], c)
  {
    seq(|w|, k requires 0 <= k < |w| => AtomFor(w[k]))
  }

  lemma EscapeConcat(a: string, b: string)
    ensures Escape(a + b) == Escape(a) + Escape(b)
  {
  }

  /** The first character of a regex-safe string, followed by anything but
      `?`, compiles to its plain atom. */
  lemma CompileSafeHead(a: string, b: string)
    requires RegexSafe(a) && |a| > 0
    requires |b| == 0 || b[0] != '?'
    ensures Compile(a + b) == Prepend(AtomFor(a[0]), Compile(a[1..] + b))
  {
    var src := a + b;
    assert src[0] == a[0] && src[0] != '[' && !IsUnsupportedMeta(src[0]);
    assert ReadClass(src) == Some((AtomFor(a[0]).accepts, 1));
    assert src[1..] == a[1..] + b;
    assert !(1 < |src| && src[1] == '?') by {
      if |a| == 1 {
        assert src[1..] == b;
      } else {
        assert src[1] == a[1];
      }
    }
  }

  /** Inserting a regex-safe string into a source contributes exactly its
      escaped atoms, provided what follows does not start with `?`. */
  lemma {:induction false} CompileSafePrefix(a: string, b: string)
    requires RegexSafe(a)
    requires |b| == 0 || b[0] != '?'
    ensures Compile(a + b) == match Compile(b)
                              case None => None
                              case Some(p) => Some(Escape(a) + p)
    decreases |a|
  {
    if |a| == 0 {
      assert a + b == b;
      assert Escape(a) == [];
      match Compile(b)
      case None =>
      case Some(p) =>
        assert Escape(a) + p == p;
    } else {
      CompileSafeHead(a, b);
      assert RegexSafe(a[1..]);
      CompileSafePrefix(a[1..], b);
      assert Escape(a) == [AtomFor(a[0])] + Escape(a[1..]);
      match Compile(b)
      case None =>
      case Some(p) =>
        assert [AtomFor(a[0])] + (Escape(a[1..]) + p) == Escape(a) + p;
    }
  }

  /** A plain character followed by `?` compiles to one optional atom. */
  lemma CompileOptionalChar(c: char, rest: string)
    requires c != '.' && c != '[' && !IsUnsupportedMeta(c)
    ensures Compile([c, '?'] + rest) == Prepend(Atom(Exactly(c), true), Compile(rest))
  {
    var src := [c, '?'] + rest;
    assert ReadClass(src) == Some((Exactly(c), 1));
    assert src[2..] == rest;
  }

  /** Matching a regex-safe string's atoms followed by more pattern is
      fitting the string and then matching the rest. */
  lemma {:induction false} MatchesEscaped(w: string, p: seq<Atom>, s: string, i: nat)
    requires i <= |s|
    ensures MatchesAt(Escape(w) + p, s, i) <==> FitsAt(w, s, i) && MatchesAt(p, s, i + |w|)
    decreases |w|
  {
    if |w| == 0 {
      assert Escape(w) + p == p;
    } else {
      var q := Escape(w) + p;
      assert q[0] == AtomFor(w[0]);
      assert q[1..] == Escape(w[1..]) + p;
      if i < |s| {
        MatchesEscaped(w[1..], p, s, i + 1);
        assert FitsAt(w, s, i) <==> CharFits(w[0], s[i]) && FitsAt(w[1..], s, i + 1) by {
          if CharFits(w[0], s[i]) && FitsAt(w[1..], s, i + 1) {
            forall k | 0 <= k < |w|
              ensures CharFits(w[k], s[i + k])
            {
              if k > 0 {
                assert w[k] == w[1..][k - 1];
              }
            }
          }
          if FitsAt(w, s, i) {
            forall k | 0 <= k < |w| - 1
              ensures CharFits(w[1..][k], s[i + 1 + k])
            {
              assert w[1..][k] == w[k + 1];
            }
          }
        }
      }
    }
  }

  /** An optional atom between two patterns, the first of them without
      optional atoms, can be taken or skipped. */
  lemma {:induction false} OptionalEitherWay(pre: seq<Atom>, k: CharClass, post: seq<Atom>, s: string, i: nat)
    requires i <= |s|
    requires forall n :: 0 <= n < |pre| ==> !pre[n].optional
    ensures MatchesAt(pre + [Atom(k, true)] + post, s, i)
        <==> MatchesAt(pre + [Atom(k, false)] + post, s, i) || MatchesAt(pre + post, s, i)
    decreases |pre|
  {
    if |pre| == 0 {
      assert pre + [Atom(k, true)] + post == [Atom(k, true)] + post;
      assert pre + [Atom(k, false)] + post == [Atom(k, false)] + post;
      assert pre + post == post;
      assert ([Atom(k, true)] + post)[1..] == post;
      assert ([Atom(k, false)] + post)[1..] == post;
    } else {
      assert (pre + [Atom(k, true)] + post)[1..] == pre[1..] + [Atom(k, true)] + post;
      assert (pre + [Atom(k, false)] + post)[1..] == pre[1..] + [Atom(k, false)] + post;
      assert (pre + post)[1..] == pre[1..] + post;
      if i < |s| {
        OptionalEitherWay(pre[1..], k, post, s, i + 1);
      }
    }
  }

}

=== FILE: prefixes.dfy ===
/** The prefix table of sparql-editor.js: a map from prefix name to IRI,
    seeded with thirteen defaults (lines 35-49), into which the endpoint's
    `sh:prefix`/`sh:namespace` bindings are merged in response order
    (lines 52-53), and whose keys are pushed to the editor one object at a
    time in ascending order (lines 63-69). */
module Prefixes {

  import opened Wrappers
  import opened StringOrder

  type Table = map<string, string>

  /** The table before any endpoint data has arrived. */
  const Defaults: Table := map[
    "up" := "http://purl.uniprot.org/core/",
    "keywords" := "http://purl.uniprot.org/keywords/",
    "uniprotkb" := "http://purl.uniprot.org/uniprot/",
    "taxon" := "http://purl.uniprot.org/taxonomy/",
    "ec" := "http://purl.uniprot.org/enzyme/",
    "rdf" := "http://www.w3.org/1999/02/22-rdf-syntax-ns#",
    "rdfs" := "http://www.w3.org/2000/01/rdf-schema#",
    "skos" := "http://www.w3.org/2004/02/skos/core#",
    "owl" := "http://www.w3.org/2002/07/owl#",
    "bibo" := "http://purl.org/ontology/bibo/",
    "dc" := "http://purl.org/dc/terms/",
    "xsd" := "http://www.w3.org/2001/XMLSchema#",
    "faldo" := "http://biohackathon.org/resource/faldo#"
  ]

  /** The default prefix names in ascending order. */
  const DefaultKeysAscending: seq<string> :=
    ["bibo", "dc", "ec", "faldo", "keywords", "owl", "rdf", "rdfs",
     "skos", "taxon", "uniprotkb", "up", "xsd"]

  /** One row of the endpoint's prefix query. */
  datatype Binding = Binding(prefix: string, namespace: string)

  /** `bindings.forEach(b => prefixes.set(b.prefix, b.namespace))`. */
  function Merge(t: Table, bindings: seq<Binding>): (r: Table)
    ensures r.Keys == t.Keys + set b | b in bindings :: b.prefix
    ensures forall k :: k in r ==> r[k] == MergedValue(t, bindings, k)
    decreases |bindings|
  {
    if |bindings| == 0 then t
    else
      var b := bindings[0];
      var rest := bindings[1..];
      assert bindings == [b] + rest;
      assert forall k :: MergedValue(t, bindings, k) == MergedValue(t[b.prefix := b.namespace], rest, k)
        by {
          forall k
            ensures MergedValue(t, bindings, k) == MergedValue(t[b.prefix := b.namespace], rest, k)
          {
            LastNamespaceOfConcat([b], rest, k);
          }
        }
      Merge(t[b.prefix := b.namespace], rest)
  }

  /** The IRI a key holds after the merge: the namespace of the last row
      naming it, or else its IRI before the merge (the empty string stands
      for a key in neither). */
  function MergedValue(t: Table, bindings: seq<Binding>, k: string): string
  {
    match LastNamespace(bindings, k)
    case Some(ns) => ns
    case None => if k in t then t[k] else ""
  }

  /** The namespace of the last binding for `k`, searching from the end of
      the response. */
  function LastNamespace(bindings: seq<Binding>, k: string): (r: Option<string>)
    ensures r.None? <==> forall i :: 0 <= i < |bindings| ==> bindings[i].prefix != k
    decreases |bindings|
  {
    if |bindings| == 0 then None
    else if bindings[|bindings| - 1].prefix == k then Some(bindings[|bindings| - 1].namespace)
    else LastNamespace(bindings[..|bindings| - 1], k)
  }

  /** A key's last namespace is the namespace of a row naming the key, and
      no later row names it: the last row wins. */
  lemma {:induction false} LastNamespaceIsLastRow(bindings: seq<Binding>, k: string)
    requires LastNamespace(bindings, k).Some?
    ensures exists i :: 0 <= i < |bindings| && bindings[i].prefix == k
                        && bindings[i].namespace == LastNamespace(bindings, k).value
                        && forall j :: i < j < |bindings| ==> bindings[j].prefix != k
    decreases |bindings|
  {
    var n := |bindings| - 1;
    if bindings[n].prefix != k {
      var front := bindings[..n];
      LastNamespaceIsLastRow(front, k);
      var i :| 0 <= i < n && front[i].prefix == k && front[i].namespace == LastNamespace(bindings, k).value
                && forall j :: i < j < n ==> front[j].prefix != k;
      assert bindings[i] == front[i];
      forall j | i < j < |bindings|
        ensures bindings[j].prefix != k
      {
        if j < n {
          assert bindings[j] == front[j];
        }
      }
    }
  }

  lemma {:induction false} LastNamespaceOfConcat(a: seq<Binding>, b: seq<Binding>, k: string)
    ensures LastNamespace(a + b, k) == match LastNamespace(b, k)
                                      case Some(ns) => Some(ns)
                                      case None => LastNamespace(a, k)
    decreases |b|
  {
    if |b| > 0 {
      assert (a + b)[..|a + b| - 1] == a + b[..|b| - 1];
      LastNamespaceOfConcat(a, b[..|b| - 1], k);
    } else {
      assert a + b == a;
    }
  }

  /** Merging two responses one after the other is merging their
      concatenation. */
  lemma {:induction false} MergeConcat(t: Table, a: seq<Binding>, b: seq<Binding>)
    ensures Merge(Merge(t, a), b) == Merge(t, a + b)
    decreases |a|
  {
    if |a| == 0 {
      assert a + b == b;
    } else {
      assert (a + b)[0] == a[0];
      assert (a + b)[1..] == a[1..] + b;
      MergeConcat(t[a[0].prefix := a[0].namespace], a[1..], b);
    }
  }

  /** Merging the same response a second time changes nothing. */
  lemma MergeIdempotent(t: Table, bindings: seq<Binding>)
    ensures Merge(Merge(t, bindings), bindings) == Merge(t, bindings)
  {
    var once := Merge(t, bindings);
    var twice := Merge(once, bindings);
    forall k | k in once
      ensures twice[k] == once[k]
    {
      if LastNamespace(bindings, k).None? {
        assert twice[k] == once[k];
      }
    }
  }

  /** A row of the endpoint's JSON result: either field may be missing. */
  datatype RawBinding = RawBinding(prefix: Option<string>, namespace: Option<string>)

  predicate WellFormed(raw: RawBinding)
  {
    raw.prefix.Some? && raw.namespace.Some?
  }

  /** The rows `forEach` gets through before the first row whose `prefix` or
      `namespace` is missing, where `b.prefix.value` throws. */
  function ReadablePrefix(raws: seq<RawBinding>): (bs: seq<Binding>)
    ensures |bs| <= |raws|
    ensures forall i :: 0 <= i < |bs| ==> WellFormed(raws[i]) && bs[i] == Binding(raws[i].prefix.value, raws[i].namespace.value)
    ensures |bs| < |raws| ==> !WellFormed(raws[|bs|])
    decreases |raws|
  {
    if |raws| == 0 || !WellFormed(raws[0]) then []
    else [Binding(raws[0].prefix.value, raws[0].namespace.value)] + ReadablePrefix(raws[1..])
  }

  /** The JSON rows of a response in which every field is present. */
  function AsRows(bindings: seq<Binding>): (raws: seq<RawBinding>)
    ensures |raws| == |bindings|
    ensures forall i :: 0 <= i < |raws| ==> WellFormed(raws[i])
  {
    seq(|bindings|, i requires 0 <= i < |bindings| => RawBinding(Some(bindings[i].prefix), Some(bindings[i].namespace)))
  }

  /** When every row is readable, `forEach` gets through all of them. */
  lemma ReadableAll(bindings: seq<Binding>)
    ensures ReadablePrefix(AsRows(bindings)) == bindings
  {
    var bs := ReadablePrefix(AsRows(bindings));
    assert |bs| == |bindings|;
    assert forall i :: 0 <= i < |bs| ==> bs[i] == bindings[i];
  }

  /** The table's keys in the order `[...prefixes.keys()].sort()` gives. */
  function SortedKeys(t: Table): (keys: seq<string>)
    ensures |keys| == |t|
    ensures forall k :: k in keys <==> k in t
    ensures StrictlyAscending(keys)
  {
    SortedSet(t.Keys)
  }

  /** The key every plain JavaScript object inherits an accessor for:
      assigning a string through it leaves the object's own properties
      unchanged. */
  const ProtoKey: string := "__proto__"

  /** One push of the add-prefixes loop: the key and IRI written into a
      fresh object with `pref[key] = iri`. */
  datatype Pref = Pref(key: string, iri: string)
  {
    /** The object handed to the editor's `addPrefixes`: `{key: iri}`,
        except that for `__proto__` the assignment goes to the inherited
        setter, which ignores a string, and the object stays empty. */
    function AsObject(): (o: Table)
      ensures key in o <==> key != ProtoKey
      ensures forall k :: k in o ==> k == key && o[k] == iri
    {
      if key == ProtoKey then map[] else map[key := iri]
    }
  }

  /** The key and `table[key]` for each key, in the given order. */
  function Entries(t: Table, keys: seq<string>): (pushes: seq<Pref>)
    requires forall k :: k in keys ==> k in t
    ensures |pushes| == |keys|
    ensures forall i :: 0 <= i < |keys| ==> pushes[i].key == keys[i] && pushes[i].iri == t[keys[i]]
    decreases |keys|
  {
    if |keys| == 0 then [] else [Pref(keys[0], t[keys[0]])] + Entries(t, keys[1..])
  }

  /** What the add-prefixes button hands to the editor, one call per key:
      every key of the table exactly once, ascending, with its IRI, each
      pair arriving as `Pref.AsObject`. */
  function PushAll(t: Table): (pushes: seq<Pref>)
    ensures |pushes| == |t|
    ensures forall i :: 0 <= i < |pushes| ==> pushes[i].key in t && pushes[i].iri == t[pushes[i].key]
    ensures forall k :: k in t ==> exists i :: 0 <= i < |pushes| && pushes[i].key == k
    ensures forall i, j :: 0 <= i < j < |pushes| ==> Less(pushes[i].key, pushes[j].key)
  {
    var keys := SortedKeys(t);
    var pushes := Entries(t, keys);
    EntriesOfAllKeys(t, keys, pushes);
    pushes
  }

  lemma EntriesOfAllKeys(t: Table, keys: seq<string>, pushes: seq<Pref>)
    requires |keys| == |t|
    requires forall k :: k in keys <==> k in t
    requires StrictlyAscending(keys)
    requires pushes == Entries(t, keys)
    ensures |pushes| == |t|
    ensures forall i :: 0 <= i < |pushes| ==> pushes[i].key in t && pushes[i].iri == t[pushes[i].key]
    ensures forall k :: k in t ==> exists i :: 0 <= i < |pushes| && pushes[i].key == k
    ensures forall i, j :: 0 <= i < j < |pushes| ==> Less(pushes[i].key, pushes[j].key)
  {
    EntriesOfKeys(t, keys, pushes);
  }

  /** Entries of ascending table keys: each names a key of the table with
      its IRI, exactly the listed keys are named, and they ascend. */
  lemma EntriesOfKeys(t: Table, keys: seq<string>, pushes: seq<Pref>)
    requires forall k :: k in keys ==> k in t
    requires StrictlyAscending(keys)
    requires pushes == Entries(t, keys)
    ensures |pushes| == |keys|
    ensures forall i :: 0 <= i < |pushes| ==> pushes[i].key in t && pushes[i].iri == t[pushes[i].key]
    ensures forall k :: (exists i :: 0 <= i < |pushes| && pushes[i].key == k) <==> k in keys
    ensures forall i, j :: 0 <= i < j < |pushes| ==> Less(pushes[i].key, pushes[j].key)
  {
    EntriesFromTable(t, keys);
    EntriesListKeys(t, keys, pushes);
    EntriesAscend(t, keys, pushes);
  }

  lemma EntriesFromTable(t: Table, keys: seq<string>)
    requires forall k :: k in keys ==> k in t
    ensures forall i :: 0 <= i < |keys| ==> Entries(t, keys)[i].key in t
  {
    forall i | 0 <= i < |keys|
      ensures Entries(t, keys)[i].key in t
    {
      assert keys[i] in keys;
    }
  }

  /** Entries of ascending keys ascend. */
  lemma EntriesAscend(t: Table, keys: seq<string>, pushes: seq<Pref>)
    requires forall k :: k in keys ==> k in t
    requires pushes == Entries(t, keys)
    requires StrictlyAscending(keys)
    ensures forall i, j :: 0 <= i < j < |pushes| ==> Less(pushes[i].key, pushes[j].key)
  {
  }

  /** The entries name exactly the listed keys. */
  lemma EntriesListKeys(t: Table, keys: seq<string>, pushes: seq<Pref>)
    requires forall k :: k in keys ==> k in t
    requires pushes == Entries(t, keys)
    ensures forall k :: (exists i :: 0 <= i < |pushes| && pushes[i].key == k) <==> k in keys
  {
    forall k
      ensures (exists i :: 0 <= i < |pushes| && pushes[i].key == k) <==> k in keys
    {
      if k in keys {
        var i :| 0 <= i < |keys| && keys[i] == k;
        assert pushes[i].key == k;
      }
    }
  }

  /** Object-spreads the pushed objects left to right. */
  function Combine(pushes: seq<Pref>): Table
    decreases |pushes|
  {
    if |pushes| == 0 then map[] else pushes[0].AsObject() + Combine(pushes[1..])
  }

  lemma {:induction false} CombineEntries(t: Table, keys: seq<string>)
    requires forall k :: k in keys ==> k in t
    ensures forall k :: k in Combine(Entries(t, keys)) <==> k in keys && k != ProtoKey
    ensures forall k :: k in Combine(Entries(t, keys)) ==> Combine(Entries(t, keys))[k] == t[k]
    decreases |keys|
  {
    if |keys| > 0 {
      CombineEntries(t, keys[1..]);
      assert Entries(t, keys)[1..] == Entries(t, keys[1..]);
      assert forall k :: k in keys <==> k == keys[0] || k in keys[1..];
    }
  }

  /** Replaying what the button pushes rebuilds the table, except for a
      `__proto__` key, whose object arrives empty: no other key is lost and
      none is given another IRI. */
  lemma PushAllRebuildsTable(t: Table)
    ensures Combine(PushAll(t)) == t - {ProtoKey}
  {
    var keys := SortedKeys(t);
    var c := Combine(Entries(t, keys));
    CombineEntries(t, keys);
    SameEntries(c, t - {ProtoKey});
  }

  /** Two tables with the same keys and the same IRI under each key are
      equal. */
  lemma SameEntries(a: Table, b: Table)
    requires forall k :: k in a <==> k in b
    requires forall k :: k in a ==> a[k] == b[k]
    ensures a == b
  {
  }

  /** A table whose only key is `__proto__` hands over nothing at all. */
  lemma ProtoKeyIsLost(iri: string)
    ensures Combine(PushAll(map[ProtoKey := iri])) == map[]
  {
    PushAllRebuildsTable(map[ProtoKey := iri]);
  }

  lemma DefaultKeysAscend()
    ensures StrictlyAscending(DefaultKeysAscending)
  {
    var r := DefaultKeysAscending;
    assert Less(r[0], r[1]);
    assert Less(r[1], r[2]);
    assert Less(r[2], r[3]);
    assert Less(r[3], r[4]);
    assert Less(r[4], r[5]);
    assert Less(r[5], r[6]);
    assert Less(r[6], r[7]);
    assert Less(r[7], r[8]);
    assert Less(r[8], r[9]);
    assert Less(r[9], r[10]);
    assert Less(r[10], r[11]);
    assert Less(r[11], r[12]);
    AscendingFromNeighbours(r);
  }

  /** The thirteen defaults, and the order the button pushes them in. */
  lemma DefaultsListed()
    ensures |Defaults| == 13
    ensures SortedKeys(Defaults) == DefaultKeysAscending
  {
    var r := DefaultKeysAscending;
    DefaultKeysAscend();
    assert forall k :: k in r <==> k in Defaults;
    SortedSetIsTheAscendingListing(Defaults.Keys, r);
  }

}

=== FILE: string_order.dfy ===
/** The order JavaScript's default `Array.prototype.sort` puts strings in:
    character by character, a proper prefix before any longer string.
    `SortedSet` lists a finite set of strings in that order, which is how the
    prefix table's keys are visited. */
module StringOrder {

  /** `a` sorts no later than `b`. */
  predicate LessEq(a: string, b: string)
    decreases |a|
  {
    |a| == 0 || (|b| > 0 && (a[0] < b[0] || (a[0] == b[0] && LessEq(a[1..], b[1..]))))
  }

  /** `a` sorts strictly before `b`. */
  predicate Less(a: string, b: string)
  {
    LessEq(a, b) && a != b
  }

  /** Every element sorts strictly before every later one: ascending, and no
      element occurs twice. */
  predicate StrictlyAscending(r: seq<string>)
  {
    forall i, j :: 0 <= i < j < |r| ==> Less(r[i], r[j])
  }

  lemma {:induction false} LessEqReflexive(a: string)
    ensures LessEq(a, a)
    decreases |a|
  {
    if |a| > 0 {
      LessEqReflexive(a[1..]);
    }
  }

  lemma {:induction false} LessEqAntisymmetric(a: string, b: string)
    requires LessEq(a, b) && LessEq(b, a)
    ensures a == b
    decreases |a|
  {
    if |a| > 0 {
      LessEqAntisymmetric(a[1..], b[1..]);
      assert a == [a[0]] + a[1..];
      assert b == [b[0]] + b[1..];
    }
  }

  lemma {:induction false} LessEqTransitive(a: string, b: string, c: string)
    requires LessEq(a, b) && LessEq(b, c)
    ensures LessEq(a, c)
    decreases |a|
  {
    if |a| > 0 && a[0] == b[0] && b[0] == c[0] {
      LessEqTransitive(a[1..], b[1..], c[1..]);
    }
  }

  lemma {:induction false} LessEqTotal(a: string, b: string)
    ensures LessEq(a, b) || LessEq(b, a)
    decreases |a|
  {
    if |a| > 0 && |b| > 0 && a[0] == b[0] {
      LessEqTotal(a[1..], b[1..]);
    }
  }

  lemma LessTransitive(a: string, b: string, c: string)
    requires Less(a, b) && Less(b, c)
    ensures Less(a, c)
  {
    LessEqTransitive(a, b, c);
    if a == c {
      LessEqAntisymmetric(a, b);
    }
  }

  lemma AntisymmetryEverywhere()
    ensures forall a, b :: LessEq(a, b) && LessEq(b, a) ==> a == b
  {
    forall a, b | LessEq(a, b) && LessEq(b, a)
      ensures a == b
    {
      LessEqAntisymmetric(a, b);
    }
  }

  /** `m` is in `s` and sorts no later than any element of `s`. */
  predicate IsLeast(m: string, s: set<string>)
  {
    m in s && forall x :: x in s ==> LessEq(m, x)
  }

  /** Every non-empty finite set of strings has an element sorting no later
      than all the others. */
  lemma {:induction false} MinimumExists(s: set<string>)
    requires s != {}
    ensures exists m :: IsLeast(m, s)
    decreases |s|
  {
    var y :| y in s;
    LessEqReflexive(y);
    if s == {y} {
      assert IsLeast(y, s);
    } else {
      var rest := s - {y};
      assert |rest| < |s|;
      MinimumExists(rest);
      var m :| IsLeast(m, rest);
      LessEqTotal(m, y);
      if LessEq(m, y) {
        assert IsLeast(m, s);
      } else {
        LeastOfAdded(y, m, rest);
        assert rest + {y} == s;
      }
    }
  }

  /** An element sorting before the least element of `rest` is the least
      element once added to it. */
  lemma LeastOfAdded(y: string, m: string, rest: set<string>)
    requires IsLeast(m, rest) && LessEq(y, m)
    ensures IsLeast(y, rest + {y})
  {
    LessEqReflexive(y);
    forall x | x in rest + {y}
      ensures LessEq(y, x)
    {
      if x != y {
        LessEqTransitive(y, m, x);
      }
    }
  }

  /** The element of a non-empty set that sorts first. */
  function Minimum(s: set<string>): (m: string)
    requires s != {}
    ensures m in s
    ensures forall x :: x in s ==> LessEq(m, x)
  {
    MinimumExists(s);
    AntisymmetryEverywhere();
    var m :| IsLeast(m, s);
    m
  }

  /** The elements of `s`, each once, in ascending order. */
  function SortedSet(s: set<string>): (r: seq<string>)
    ensures |r| == |s|
    ensures forall x :: x in r <==> x in s
    ensures StrictlyAscending(r)
    decreases |s|
  {
    if s == {} then []
    else
      var m := Minimum(s);
      [m] + SortedSet(s - {m})
  }

  /** There is only one strictly ascending listing of a set: any such listing
      is the one `SortedSet` builds. */
  lemma {:induction false} AscendingListingIsUnique(a: seq<string>, b: seq<string>)
    requires StrictlyAscending(a) && StrictlyAscending(b)
    requires forall x :: x in a <==> x in b
    ensures a == b
    decreases |a|
  {
    if |a| > 0 {
      assert a[0] in a;
      assert |b| > 0;
      assert b[0] in b;
      if a[0] != b[0] {
        var i :| 0 <= i < |b| && b[i] == a[0];
        var j :| 0 <= j < |a| && a[j] == b[0];
        assert i > 0 && j > 0;
        assert Less(b[0], a[0]) && Less(a[0], b[0]);
        LessEqAntisymmetric(a[0], b[0]);
      }
      forall x
        ensures x in a[1..] <==> x in b[1..]
      {
        if x in a[1..] {
          var i :| 1 <= i < |a| && a[i] == x;
          assert Less(a[0], a[i]);
          assert a[i] in a;
          var k :| 0 <= k < |b| && b[k] == x;
          assert k != 0;
          assert b[1..][k - 1] == x;
        }
        if x in b[1..] {
          var i :| 1 <= i < |b| && b[i] == x;
          assert Less(b[0], b[i]);
          assert b[i] in b;
          var k :| 0 <= k < |a| && a[k] == x;
          assert k != 0;
          assert a[1..][k - 1] == x;
        }
      }
      AscendingListingIsUnique(a[1..], b[1..]);
      assert a == [a[0]] + a[1..];
      assert b == [b[0]] + b[1..];
    } else {
      HeadIsMember(b);
    }
  }

  lemma HeadIsMember(b: seq<string>)
    ensures |b| > 0 ==> b[0] in b
  {
  }

  lemma SortedSetIsTheAscendingListing(s: set<string>, r: seq<string>)
    requires StrictlyAscending(r)
    requires forall x :: x in r <==> x in s
    ensures SortedSet(s) == r
  {
    AscendingListingIsUnique(SortedSet(s), r);
  }

  /** Checking neighbours is enough to establish strict ascent. */
  lemma {:induction false} AscendingFromNeighbours(r: seq<string>)
    requires forall i :: 0 <= i < |r| - 1 ==> Less(r[i], r[i + 1])
    ensures StrictlyAscending(r)
    decreases |r|
  {
    if |r| > 1 {
      AscendingFromNeighbours(r[1..]);
      forall j | 1 <= j < |r|
        ensures Less(r[0], r[j])
      {
        if j > 1 {
          assert Less(r[1], r[j]) by {
            assert r[1] == r[1..][0] && r[j] == r[1..][j - 1];
          }
          LessTransitive(r[0], r[1], r[j]);
        }
      }
      forall i, j | 0 <= i < j < |r|
        ensures Less(r[i], r[j])
      {
        if i > 0 {
          assert r[i] == r[1..][i - 1] && r[j] == r[1..][j - 1];
        }
      }
    }
  }

}

=== FILE: term_list.dfy ===
/** The response parse shared by the class and property autocompleters
    (sparql-editor.js lines 88-90 and 104-106): the CSV text is split on line
    feeds as JavaScript's `String.prototype.split` does, empty lines are
    dropped, and the first remaining line, the CSV header, is shifted off. */
module TermList {

  import opened Wrappers

  const LineFeed: char := '\n'

  /** Joins pieces with `sep` between neighbours; the inverse of `Split`. */
  function Join(pieces: seq<string>, sep: char): string
    requires |pieces| >= 1
    decreases |pieces|
  {
    if |pieces| == 1 then pieces[0] else pieces[0] + [sep] + Join(pieces[1..], sep)
  }

  /** `s.split(sep)` for a one-character separator: the maximal runs between
      separators, so an empty string gives one empty piece and a trailing
      separator gives a trailing empty piece. */
  function Split(s: string, sep: char): (pieces: seq<string>)
    ensures |pieces| >= 1
    ensures forall i :: 0 <= i < |pieces| ==> sep !in pieces[i]
    ensures Join(pieces, sep) == s
    decreases |s|
  {
    if |s| == 0 then [""]
    else
      var rest := Split(s[1..], sep);
      assert s == [s[0]] + s[1..];
      if s[0] == sep then [""] + rest
      else [[s[0]] + rest[0]] + rest[1..]
  }

  /** One piece more than there are separators. */
  lemma {:induction false} SplitPieceCount(s: string, sep: char)
    ensures |Split(s, sep)| == multiset(s)[sep] + 1
    decreases |s|
  {
    if |s| > 0 {
      SplitPieceCount(s[1..], sep);
      SplitLengthStep(s, sep);
      SeparatorCountStep(s, sep);
    }
  }

  /** Counting separators one character at a time. */
  lemma SeparatorCountStep(s: string, sep: char)
    requires |s| > 0
    ensures multiset(s)[sep] == multiset(s[1..])[sep] + (if s[0] == sep then 1 else 0)
  {
    assert s == [s[0]] + s[1..];
    assert multiset(s) == multiset{s[0]} + multiset(s[1..]);
  }

  /** A leading separator adds a piece; any other first character joins
      the first piece. */
  lemma SplitLengthStep(s: string, sep: char)
    requires |s| > 0
    ensures |Split(s, sep)| == |Split(s[1..], sep)| + (if s[0] == sep then 1 else 0)
  {
  }

  /** Splitting a join of separator-free pieces gives the pieces back. */
  lemma {:induction false} SplitJoin(pieces: seq<string>, sep: char)
    requires |pieces| >= 1
    requires forall i :: 0 <= i < |pieces| ==> sep !in pieces[i]
    ensures Split(Join(pieces, sep), sep) == pieces
    decreases |pieces|
  {
    if |pieces| == 1 {
      SplitWithoutSeparator(pieces[0], sep);
    } else {
      SplitJoin(pieces[1..], sep);
      SplitAfterPiece(pieces[0], Join(pieces[1..], sep), sep);
      assert pieces == [pieces[0]] + pieces[1..];
    }
  }

  lemma {:induction false} SplitWithoutSeparator(s: string, sep: char)
    requires sep !in s
    ensures Split(s, sep) == [s]
    decreases |s|
  {
    if |s| > 0 {
      assert sep !in s[1..] by {
        assert forall x :: x in s[1..] ==> x in s;
      }
      SplitWithoutSeparator(s[1..], sep);
      assert s == [s[0]] + s[1..];
    }
  }

  /** A separator-free first piece followed by the separator splits off as
      one piece. */
  lemma {:induction false} SplitAfterPiece(p: string, t: string, sep: char)
    requires sep !in p
    ensures Split(p + [sep] + t, sep) == [p] + Split(t, sep)
    decreases |p|
  {
    var s := p + [sep] + t;
    if |p| == 0 {
      assert s == [sep] + t;
      assert s[1..] == t;
    } else {
      assert sep !in p[1..] by {
        assert forall x :: x in p[1..] ==> x in p;
      }
      assert s[1..] == p[1..] + [sep] + t;
      SplitAfterPiece(p[1..], t, sep);
      var rest := Split(s[1..], sep);
      assert rest[0] == p[1..] && rest[1..] == Split(t, sep);
      assert s[0] == p[0] && s[0] != sep;
      assert Split(s, sep) == [[p[0]] + rest[0]] + rest[1..];
      assert p == [p[0]] + p[1..];
    }
  }

  /** `a` can be obtained from `b` by deleting elements. */
  predicate IsSubsequence(a: seq<string>, b: seq<string>)
    decreases |b|
  {
    if |a| == 0 then true
    else if |b| == 0 then false
    else if a[0] == b[0] then IsSubsequence(a[1..], b[1..])
    else IsSubsequence(a, b[1..])
  }

  lemma {:induction false} SubsequenceOfTail(a: seq<string>, b: seq<string>)
    requires |a| > 0 && IsSubsequence(a, b)
    ensures IsSubsequence(a[1..], b)
    decreases |b|, 1
  {
    if |a| > 1 {
      if a[0] == b[0] {
        SubsequenceOfLonger(a[1..], b);
      } else {
        SubsequenceOfTail(a, b[1..]);
        SubsequenceOfLonger(a[1..], b);
      }
    }
  }

  /** A subsequence of `b[1..]` is a subsequence of `b`. */
  lemma {:induction false} SubsequenceOfLonger(a: seq<string>, b: seq<string>)
    requires |b| > 0 && IsSubsequence(a, b[1..])
    ensures IsSubsequence(a, b)
    decreases |b|, 0
  {
    if |a| > 0 && a[0] == b[0] {
      SubsequenceOfTail(a, b[1..]);
    }
  }

  /** `.filter(item => item !== "")`: the non-empty lines, in order. */
  function NonEmpty(lines: seq<string>): (kept: seq<string>)
    ensures forall i :: 0 <= i < |kept| ==> kept[i] != ""
    ensures forall x :: multiset(kept)[x] == if x == "" then 0 else multiset(lines)[x]
    ensures IsSubsequence(kept, lines)
    decreases |lines|
  {
    if |lines| == 0 then []
    else
      assert lines == [lines[0]] + lines[1..];
      var rest := NonEmpty(lines[1..]);
      if lines[0] == "" then
        assert |rest| == 0 || rest[0] != lines[0];
        rest
      else [lines[0]] + rest
  }

  /** Number of lines of `text` that are not empty. */
  function NonEmptyLineCount(text: string): nat
  {
    var lines := Split(text, LineFeed);
    |lines| - multiset(lines)[""]
  }

  /** The autocompleter's term list: the non-empty lines of the CSV text
      after the header line. */
  function Terms(text: string): (terms: seq<string>)
    ensures forall i :: 0 <= i < |terms| ==> terms[i] != "" && LineFeed !in terms[i]
    ensures |terms| == if NonEmptyLineCount(text) == 0 then 0 else NonEmptyLineCount(text) - 1
    ensures IsSubsequence(terms, Split(text, LineFeed))
  {
    var lines := Split(text, LineFeed);
    var data := NonEmpty(lines);
    assert |data| == |lines| - multiset(lines)[""] by {
      assert |multiset(data)| == |data|;
      assert |multiset(lines)| == |lines|;
      MultisetSizeWithoutEmpty(data, lines);
    }
    forall i | 0 <= i < |data|
      ensures LineFeed !in data[i]
    {
      assert data[i] in multiset(data);
      assert data[i] in lines;
    }
    if |data| == 0 then []
    else
      SubsequenceOfTail(data, lines);
      data[1..]
  }

  lemma MultisetSizeWithoutEmpty(data: seq<string>, lines: seq<string>)
    requires forall x :: multiset(data)[x] == if x == "" then 0 else multiset(lines)[x]
    ensures |data| == |lines| - multiset(lines)[""]
  {
    var e := multiset(lines)[""];
    assert multiset(lines) == multiset(data) + multiset{}[""  := e];
    assert |multiset(lines)| == |multiset(data)| + e;
    assert |multiset(data)| == |data|;
    assert |multiset(lines)| == |lines|;
  }

  /** Finding the header: the index of the first non-empty line. */
  function FirstNonEmpty(lines: seq<string>): (i: nat)
    ensures i <= |lines|
    ensures forall k :: 0 <= k < i ==> lines[k] == ""
    ensures i < |lines| ==> lines[i] != ""
  {
    if |lines| == 0 || lines[0] != "" then 0 else 1 + FirstNonEmpty(lines[1..])
  }

  /** The parse drops exactly the first non-empty line, the header: the
      non-empty lines are the header followed by the terms, and the terms
      are the non-empty lines after the header. */
  lemma {:induction false} HeaderIsFirstNonEmptyLine(text: string)
    ensures var lines := Split(text, LineFeed);
            var h := FirstNonEmpty(lines);
            h < |lines| ==> NonEmpty(lines) == [lines[h]] + Terms(text) && Terms(text) == NonEmpty(lines[h + 1..])
    ensures var lines := Split(text, LineFeed);
            FirstNonEmpty(lines) == |lines| ==> Terms(text) == []
  {
    var lines := Split(text, LineFeed);
    var h := FirstNonEmpty(lines);
    TermsDropsFirst(text);
    if h < |lines| {
      NonEmptyFromHeader(lines, h);
    } else {
      NonEmptyWithoutHeader(lines);
    }
  }

  /** The non-empty lines start with the header line `lines[h]` and go on
      with the non-empty lines after it. */
  lemma NonEmptyFromHeader(lines: seq<string>, h: nat)
    requires h < |lines| && lines[h] != ""
    requires forall k :: 0 <= k < h ==> lines[k] == ""
    ensures NonEmpty(lines) == [lines[h]] + NonEmpty(lines[h + 1..])
  {
    NonEmptySkipsEmptyPrefix(lines, h);
    NonEmptyKeepsHead(lines[h..]);
    assert lines[h..][1..] == lines[h + 1..];
  }

  /** Lines that are all empty leave nothing. */
  lemma NonEmptyWithoutHeader(lines: seq<string>)
    requires forall k :: 0 <= k < |lines| ==> lines[k] == ""
    ensures NonEmpty(lines) == []
  {
    NonEmptySkipsEmptyPrefix(lines, |lines|);
    assert lines[|lines|..] == [];
  }

  lemma TermsDropsFirst(text: string)
    ensures var data := NonEmpty(Split(text, LineFeed));
            Terms(text) == if |data| == 0 then [] else data[1..]
  {
  }

  lemma NonEmptyKeepsHead(lines: seq<string>)
    requires |lines| > 0 && lines[0] != ""
    ensures NonEmpty(lines) == [lines[0]] + NonEmpty(lines[1..])
  {
  }

  lemma {:induction false} NonEmptySkipsEmptyPrefix(lines: seq<string>, h: nat)
    requires h <= |lines|
    requires forall k :: 0 <= k < h ==> lines[k] == ""
    ensures NonEmpty(lines) == NonEmpty(lines[h..])
    decreases h
  {
    if h > 0 {
      NonEmptySkipsEmptyPrefix(lines[1..], h - 1);
      assert lines[1..][h - 1..] == lines[h..];
    }
  }

  /** The class and property completers: the term list of a fetched
      response, or nothing when the fetch or the text decoding failed (the
      `.catch` logs and resolves to `undefined`). */
  function CompleterResult(response: Option<string>): (r: Option<seq<string>>)
    ensures r.None? <==> response.None?
    ensures response.Some? ==> r == Some(Terms(response.value))
    ensures r.Some? ==> forall i :: 0 <= i < |r.value| ==> r.value[i] != ""
  {
    match response
    case None => None
    case Some(text) => Some(Terms(text))
  }

  /** A fetched response gives the non-empty lines after the header line, in
      their order; a response with no non-empty line gives the empty list. */
  lemma CompleterListsLinesAfterHeader(text: string)
    ensures var lines := Split(text, LineFeed);
            var h := FirstNonEmpty(lines);
            CompleterResult(Some(text)) == Some(if h < |lines| then NonEmpty(lines[h + 1..]) else [])
  {
    HeaderIsFirstNonEmptyLine(text);
  }

  /** A CSV response with a header and trailing blank lines: the header and
      the blank lines are dropped. */
  lemma HeaderAndBlankLinesDropped()
    ensures Terms("header\nA\nB\n\n") == ["A", "B"]
  {
    ExampleLines();
    ExampleNonEmptyLines();
    TermsDropsFirst("header\nA\nB\n\n");
    assert ["header", "A", "B"][1..] == ["A", "B"];
  }

  lemma ExampleLines()
    ensures Split("header\nA\nB\n\n", LineFeed) == ["header", "A", "B", "", ""]
  {
    var lines := ["header", "A", "B", "", ""];
    assert lines[1..] == ["A", "B", "", ""];
    assert lines[2..] == ["B", "", ""];
    assert lines[3..] == ["", ""];
    assert lines[4..] == [""];
    assert Join(lines[3..], LineFeed) == "\n";
    assert Join(lines[2..], LineFeed) == "B\n\n";
    assert Join(lines[1..], LineFeed) == "A\nB\n\n";
    assert Join(lines, LineFeed) == "header\nA\nB\n\n";
    assert forall i :: 0 <= i < |lines| ==> LineFeed !in lines[i];
    SplitJoin(lines, LineFeed);
  }

  lemma ExampleNonEmptyLines()
    ensures NonEmpty(["header", "A", "B", "", ""]) == ["header", "A", "B"]
  {
    var lines := ["header", "A", "B", "", ""];
    assert lines[1..] == ["A", "B", "", ""];
    assert lines[2..] == ["B", "", ""];
    assert lines[3..] == ["", ""];
    assert lines[4..] == [""];
    assert NonEmpty(lines[3..]) == [];
    assert NonEmpty(lines[2..]) == ["B"];
    assert NonEmpty(lines[1..]) == ["A", "B"];
  }

}

=== FILE: wrappers.dfy ===
/** Optional values, used for absent JSON fields, failed fetches and
    regular-expression sources outside the supported subset. */
module Wrappers {

  datatype Option<+T> = None | Some(value: T)

}
